=== FILE: README.md ===
# Recipe costing: a verified model

A model of the logic underneath the recipe editor of a kitchen-costing front end:

- **Unit conversion.** `convertToBase` re-expresses a quantity given in one of the units `mg, g, kg, ml, l, un` in another unit of the same family.
- **The ingredient selector.**
  - The unit drop-down table (`unidadesCompatíveis`).
  - The staging state: a list of ingredients added to the recipe plus two maps keyed by ingredient id, `quantidadesLocais` and `unidadesLocais`.
  - The handlers that change the staging state: toggle, adjust quantity, adjust unit, add (an upsert) and remove. Only their local branches are modelled, that is, those taken for a recipe without an id yet.
  - The two builders of the final list (`handleConfirmar`, `handleCloseAndSave`).
  - The stock search filter and the per-row price preview.
- **The recipe editor.**
  - `recalcularCusto`: the cost total, with fail-soft numeric defaults and a zero-division guard.
  - `validate`.
  - The request payload `handleSave` builds.
  - The entry mapping of `fetchIngredients`.
- **`normalizarReceita`**, which fills in defaults for a recipe record received from the backend.

JavaScript values are modelled exactly over `real` (module `Js`):

- A number is `Finite(v)` or `NaN`.
- An object field is `Undefined`, `Null`, a number, a string, or the text `String(v)` of a finite number.
- A string carries what `parseFloat` and `Number` read from it. Those two parses are abstract.
- String-valued fields such as units and ids are Dafny strings, with `""` standing for every falsy value.

Each screen handler is a pure function over an explicit state record. The properties are stated as contracts and as lemmas relating several operations, for example:

- round trip and composition of conversions;
- the invariant that the staging state keeps;
- the decomposition of the cost total;
- an if-and-only-if for `validate`;
- idempotence of normalisation.

Files (one module each): `js.dfy`, `convert.dfy`, `compatible.dfy`, `items.dfy`, `selector.dfy`, `preview.dfy`, `cost.dfy`, `recipe_form.dfy`, `normalize.dfy`, `flows.dfy`.

In three places the code's own comments or wording point to a different intent than what it does. The model follows the code:

- **Compatible units are listed in enum order.** For `"g"` the case at `src/components/common/modals/IngredientSelectorModal.jsx:19` names the units as `"g"`, `"mg"`, `"kg"`. But it filters `unidadesEnum`, so every mass unit yields `["mg", "g", "kg"]`.
- **`recalcularCusto` does not convert.** The comments at `src/components/common/modals/RecipeModal.jsx:46-47` call `unidadeEstoque` the stock unit and `unidadeUsada` the unit of use. The comment at line 58 says the quantity is converted to the stock unit. Both variables read the same field `unidade`, so the conversion is the identity. This is recorded as a finding below.
- **`validate` accepts an unparsable quantity.** The yield check at `src/components/common/modals/RecipeModal.jsx:126` rejects NaN with `isNaN`. The quantity check at line 137 only tests `parseFloat(...) <= 0`, which is false for NaN, so an unparsable quantity passes. This is recorded as a finding below.

Two consequences of the code as written are proved in `Flows`:

- **Weighed rows cost nothing after the selector.** The rows the selector hands back carry no `pesoPorUnidade`, so the total of such a list counts only its `"un"` rows (`FinalListCostCountsOnlyUnits`).
- **A fetched entry without a unit is weighed.** It is labelled `"unidade"`, not `"un"`, so it is costed by weight.

## Model

| member | source | states |
|---|---|---|
| Convert.ConvertToBase | src/utils/convertToBase.js:1-35 | total on every pair of strings; the result is 0 exactly when the quantity is 0, and it has the quantity's sign |
| Convert.FromName | src/components/common/modals/IngredientSelectorModal.jsx:8 | exactly the six names of `unidadesEnum` are units, each read back to the unit it names |
| Convert.ConvertMatchesScale | src/utils/convertToBase.js:6-26 | within a family the quantity is multiplied by the ratio of the two unit sizes (mg:g:kg = 1:10³:10⁶, ml:l = 1:10³); across families it is unchanged |
| Convert.ConvertIdentity | src/utils/convertToBase.js:2-4 | converting to the same unit returns the quantity, for every string, including names outside the enum |
| Convert.ConvertUnrecognised | src/utils/convertToBase.js:28-34 | a pairing across families or with a name outside the enum returns the quantity unchanged and is not an error |
| Convert.VolumeFactors | src/utils/convertToBase.js:6-12 | ml to l divides by 1000; l to ml multiplies by 1000 |
| Convert.MassFactors | src/utils/convertToBase.js:14-26 | the six conversions between mg, g and kg scale by 1000 or 10⁶ in the right direction |
| Convert.ConvertRoundTrip | src/utils/convertToBase.js:7-26 | converting to another unit of the same family and back returns the original quantity |
| Convert.ConvertCompose | src/utils/convertToBase.js:7-26 | two conversions within a family equal the direct conversion |
| Convert.MassChain | src/utils/convertToBase.js:16-21 | mg to g followed by g to kg equals mg to kg |
| CompatibleUnits.Compatible | src/components/common/modals/IngredientSelectorModal.jsx:8-27 | the base is always offered; every mass base yields `[mg, g, kg]`, every volume base `[ml, l]` (enum order), `un` yields `[un]`, any other string yields `[base]` |
| CompatibleUnits.CompatibleStaysInFamily | src/components/common/modals/IngredientSelectorModal.jsx:10-27 | every unit offered for a unit of the enum is itself a unit of the enum, in the same family |
| CompatibleUnits.CompatibleIffSameFamily | src/components/common/modals/IngredientSelectorModal.jsx:10-27 | a unit of the enum is offered for a base unit of the enum exactly when both are in the same family, so converting from an offered unit to the base is a recognised scaling |
| CompatibleUnits.CompatibleCoversFamily | src/components/common/modals/IngredientSelectorModal.jsx:10-27 | every unit of the base's family is offered |
| Js.ClampAtZero | src/components/common/modals/IngredientSelectorModal.jsx:146 | `Math.max(n, 0)`: NaN stays NaN; otherwise the result is non-negative, at least `n`, and equals `n` or 0 |
| Items.StockIndex | src/components/common/modals/IngredientSelectorModal.jsx:154-160 | `estoqueMap` has exactly the stock's ids as keys, and each maps to the last stock item with that id |
| Items.FindFirst | src/components/common/modals/IngredientSelectorModal.jsx:72-75 | `find` by id is absent exactly when no item has the id, and otherwise returns the first item with it |
| Selector.Toggle | src/components/common/modals/IngredientSelectorModal.jsx:116-143 | an id with a local quantity leaves both maps, and the staged list becomes `RemoveId` of it (the other entries in their order); any other id enters both maps with quantity 0 and its `unidadeMedida`, the list unchanged; no other key changes |
| Selector.AdjustQuantity | src/components/common/modals/IngredientSelectorModal.jsx:145-148 | stores `max(Number(v), 0)` for the id: non-negative, at least the input, NaN when the input reads as NaN; nothing else changes |
| Selector.AdjustUnit | src/components/common/modals/IngredientSelectorModal.jsx:150-152 | overwrites that id's unit only; the quantities and the list are unchanged |
| Selector.AddedEntry | src/components/common/modals/IngredientSelectorModal.jsx:164-182 | the added entry has the item's id, name and price, the local quantity as a number, and the local unit falling back to the stock unit; `unidades` and `pesoPorUnidade` are the `estoqueMap` item's value when truthy, else 1; `unidadeDeMedida` falls back from the item's `unidadeDeMedida` to its `unidade` to "un" |
| Selector.AddLocal | src/components/common/modals/IngredientSelectorModal.jsx:162-195 | with no positive local quantity nothing changes; otherwise the entry is upserted: the id set gains the id, entries of other ids keep their positions, ids stay unique, and the maps are untouched |
| Selector.RemoveId | src/components/common/modals/IngredientSelectorModal.jsx:133-135 | `filter(i => i.id !== id)` keeps exactly the entries of other ids, keeps ids unique, and leaves a list without the id unchanged |
| Selector.RemoveIdAppend | src/components/common/modals/IngredientSelectorModal.jsx:133-135 | removal keeps order: removing from a concatenation is the concatenation of the removals, and a single entry is dropped exactly when it has the id, so the result is the entries of other ids in their original order |
| Selector.FilterKeepsUniqueIds | src/components/common/modals/IngredientSelectorModal.jsx:133-135 | filtering a list with unique ids keeps its ids unique |
| Selector.FindIndex | src/components/common/modals/IngredientSelectorModal.jsx:185 | `findIndex` is -1 exactly when the id is absent, and otherwise the first position holding it |
| Selector.Upsert | src/components/common/modals/IngredientSelectorModal.jsx:184-193 | an entry whose id is present replaces it in place (same length); otherwise it is appended; other entries are unchanged and ids stay unique |
| Selector.RemoveLocal | src/components/common/modals/IngredientSelectorModal.jsx:255-270 | the staged list becomes `RemoveId` of the id (the other entries in their order) and the id leaves both maps; every other key is unchanged |
| Selector.FinalList | src/components/common/modals/IngredientSelectorModal.jsx:298-340 | one row per staged entry in the same id order; the unit falls back from the local unit to `unidadeMedida` to "un"; the quantity text reads back as the local quantity when it is truthy and as 0 otherwise; no row carries `pesoPorUnidade` |
| Selector.Confirm | src/components/common/modals/IngredientSelectorModal.jsx:319-340 | same length and ids as the staged list, each row keeping its `unidades` |
| Selector.CloseAndSave | src/components/common/modals/IngredientSelectorModal.jsx:298-317 | same length and ids as the staged list, no row carrying `unidades` |
| Selector.SearchFilter | src/components/common/modals/IngredientSelectorModal.jsx:100-114 | a stock item is listed exactly when its name matches and it is not staged or still in preparation |
| Selector.SearchFilterIsNameMatch | src/components/common/modals/IngredientSelectorModal.jsx:100-114 | under the staging invariant the listed items are exactly the name matches, in stock order |
| Js.Filter | src/components/common/modals/IngredientSelectorModal.jsx:100-114 | `Array.prototype.filter`: the result holds exactly the elements that pass the test, and is no longer than the input |
| Js.FilterAppend | src/components/common/modals/IngredientSelectorModal.jsx:100-114 | filtering keeps order: the filter of a concatenation is the concatenation of the filters, and a single element is kept exactly when it passes |
| Js.FilterAgree | src/components/common/modals/IngredientSelectorModal.jsx:100-114 | two tests that agree on every element of a list filter it the same way |
| Selector.Seeded | src/components/common/modals/IngredientSelectorModal.jsx:72-82 | a seeded row equals the selected row except for three fields: the unit is its own, else the stock unit, else "un"; the price is `preco`, else a truthy stock price, else 0; `unidades` is its own when truthy, else the stock item's (undefined without one) |
| Selector.SeedQuantity | src/components/common/modals/IngredientSelectorModal.jsx:89 | `Number(q) \|\| 0`: the quantity read as a number when that is truthy, else 0 |
| Selector.SeedUnit | src/components/common/modals/IngredientSelectorModal.jsx:90-91 | the first set unit among `unidade`, `unidadeOriginal`, `unidadeMedida`, else "un" |
| Selector.SeedQuantities | src/components/common/modals/IngredientSelectorModal.jsx:86-89 | keyed by exactly the selection's ids; each id maps to SeedQuantity of the last row with that id (later writes win) |
| Selector.SeedUnits | src/components/common/modals/IngredientSelectorModal.jsx:86-92 | keyed by exactly the selection's ids; each id maps to SeedUnit of the last row with that id (later writes win) |
| Selector.InitialState | src/components/common/modals/IngredientSelectorModal.jsx:70-98 | each staged row is the selected row at the same position merged (Seeded) with the first stock item of its id; both maps are keyed by exactly the selection's ids, and for the last row of each id hold its SeedQuantity and its merged unit |
| Selector.SeedOnLoad | src/components/common/modals/IngredientSelectorModal.jsx:70-98 | the seeding runs only while the modal is open, the stock is not loading and the stock list is non-empty (line 71); otherwise the previous staging state is kept unchanged |
| Selector.EmptyStockSkipsSeeding | src/components/common/modals/IngredientSelectorModal.jsx:71 | with an empty stock the previous staging state is kept, so an empty previous list stays empty although the selection is not |
| Selector.InitialStateInv | src/components/common/modals/IngredientSelectorModal.jsx:70-98 | seeding from a selection without repeated ids establishes the staging invariant, and then every selected id maps to the quantity and unit of its own row |
| Selector.ToggleKeepsInv | src/components/common/modals/IngredientSelectorModal.jsx:116-143 | toggle keeps the staging invariant |
| Selector.AdjustQuantityKeepsInv | src/components/common/modals/IngredientSelectorModal.jsx:474-485 | adjusting the quantity of an ingredient in preparation (the only rows with the input) keeps the invariant |
| Selector.AdjustUnitKeepsInv | src/components/common/modals/IngredientSelectorModal.jsx:487-503 | adjusting the unit of an ingredient in preparation keeps the invariant |
| Selector.AddLocalKeepsInv | src/components/common/modals/IngredientSelectorModal.jsx:162-195 | the local add keeps the invariant |
| Selector.RemoveLocalKeepsInv | src/components/common/modals/IngredientSelectorModal.jsx:255-270 | the local remove keeps the invariant |
| Selector.ToggleTwiceRestores | src/components/common/modals/IngredientSelectorModal.jsx:116-143 | toggling an ingredient not in preparation twice restores the state |
| Preview.UsedQuantity | src/components/common/modals/IngredientSelectorModal.jsx:425-427 | the parsed local quantity, falling back to 0: 0 when absent or falsy, the local value otherwise |
| Preview.PreviewPrice | src/components/common/modals/IngredientSelectorModal.jsx:422-462 | 0 unless the row price is truthy and the stock `unidades > 0`; then a number exactly when the stock price reads as a number and neither `unidades` nor `pesoPorUnidade` (each falling back to 1) reads as 0 or NaN |
| Preview.RowPreviewsAgree | src/components/common/modals/IngredientSelectorModal.jsx:544-584 | the staged-list preview equals the stock-list preview (lines 422-462) for every row, although their fallbacks for a missing stock unit differ |
| Preview.PreviewFormula | src/components/common/modals/IngredientSelectorModal.jsx:422-462 | when it is a number, the preview is (price / units) times the converted quantity divided by the weight per unit |
| Preview.PreviewWithoutQuantityIsZero | src/components/common/modals/IngredientSelectorModal.jsx:544-584 | with no usable local quantity a numeric preview is 0 |
| Js.NumOr | src/components/common/modals/RecipeModal.jsx:43-48 | a number or a default: the number when truthy, else the default, so a non-zero default gives a non-zero result |
| RecipeCost.PackUnitsOf | src/components/common/modals/RecipeModal.jsx:44 | the pack count, falling back to 1, is never 0 |
| RecipeCost.RecalcularCusto | src/components/common/modals/RecipeModal.jsx:38-70 | the loop's total is the in-order sum of the entry costs |
| RecipeCost.FailSoftDefaults | src/components/common/modals/RecipeModal.jsx:43-48 | unreadable price and quantity count as 0, an unreadable or zero pack count as 1, a missing or unreadable weight per unit as 0 |
| RecipeCost.CountEntryCost | src/components/common/modals/RecipeModal.jsx:52-56 | a "un" entry costs (price / units) times the quantity, with a non-zero divisor |
| RecipeCost.WeighedEntryUsesQuantityAsIs | src/components/common/modals/RecipeModal.jsx:46-62 | both units of the conversion come from `unidade`, so the conversion is the identity and a weighed entry costs the price per unit of weight times the quantity as entered, whatever its unit |
| RecipeCost.WeighedEntryCost | src/components/common/modals/RecipeModal.jsx:57-63 | with positive pack weight a weighed entry costs price / (units × weight) × quantity |
| RecipeCost.WeighedEntryGuard | src/components/common/modals/RecipeModal.jsx:60-62 | with a pack weight at most 0 a weighed entry costs exactly 0 |
| RecipeCost.CostAppend | src/components/common/modals/RecipeModal.jsx:39-65 | the total of a concatenation is the sum of the totals |
| RecipeCost.CostSmall | src/components/common/modals/RecipeModal.jsx:39-65 | the empty list costs 0; a one-entry list costs its entry |
| RecipeCost.CostRotate | src/components/common/modals/RecipeModal.jsx:41-66 | moving the first entry to the end leaves the total unchanged |
| RecipeCost.StockUnitCostAgrees | src/components/common/modals/RecipeModal.jsx:46-63 | the stock-unit cost agrees with the cost as written when the unit of use is the stock unit, blank unit included |
| RecipeCost.StockUnitCostIsUnitInvariant | src/components/common/modals/RecipeModal.jsx:58-62 | with the conversion to the stock unit, the same usage expressed in any unit of the stock unit's family costs the same |
| RecipeCost.AsWrittenCostDependsOnUnitOfUse | src/components/common/modals/RecipeModal.jsx:46-62 | as written, 500 g of a kg item costs 2500 while 0.5 kg costs 2.5; the stock-unit cost gives 2.5 for both |
| RecipeForm.QuantityErrors | src/components/common/modals/RecipeModal.jsx:136-142 | the per-ingredient error indices are exactly the entries the test rejects, increasing and in range |
| RecipeForm.ValidateWith | src/components/common/modals/RecipeModal.jsx:116-147 | name error iff the name is blank after trim; no yield error iff the yield is not blank and parses above 0; list error iff the list is empty; never both a list error and a per-ingredient error |
| RecipeForm.ValidateIff | src/components/common/modals/RecipeModal.jsx:116-147 | validate passes iff name and yield are not blank, the yield parses above 0, the list is not empty and no quantity is falsy or parses to at most 0 |
| RecipeForm.ValidateAcceptsUnparsableQuantity | src/components/common/modals/RecipeModal.jsx:137 | as written, a quantity "abc" passes validation and the payload carries NaN |
| RecipeForm.ValidateCheckedQuantitiesParse | src/components/common/modals/RecipeModal.jsx:136-142 | with the corrected test a passing form has every quantity parsing above 0, and on parsable quantities the two tests agree |
| RecipeForm.SavePayload | src/components/common/modals/RecipeModal.jsx:149-176 | a payload exists iff validation passes; a new recipe sends the ingredients one-to-one in order and no cost; an existing one sends the parsed cost (0 when falsy) and no ingredients |
| RecipeForm.FetchedEntry | src/components/common/modals/RecipeModal.jsx:216-224 | a row yields an entry exactly when it carries its nested stock item; reading `ri.ingrediente.nome` throws otherwise |
| RecipeForm.MapFetched | src/components/common/modals/RecipeModal.jsx:216-224 | the map completes exactly when every row carries its nested item, giving one entry per row in order with the nested item's name, price, pack count and weight; the unit is the stock unit, else the row's unit, else "unidade"; the quantity text reads as the first truthy quantity column, else "" |
| RecipeForm.FetchIngredients | src/components/common/modals/RecipeModal.jsx:215-233 | the mapped list when every row carries its nested item; otherwise the catch falls through to `[]`, so one bad row empties the whole list |
| Normalize.ArrayOrEmpty | src/utils/normalizeRecipe.js:10-15 | an array is kept and anything else becomes `[]` |
| Normalize.NormalizeRecipe | src/utils/normalizeRecipe.js:1-17 | a truthy id, name, yield and method are kept, otherwise the fresh id, "", "0" and "" are used; the cost is kept iff it is a number, else 0; both lists are kept iff arrays, else `[]` |
| Normalize.NormalizeIdempotent | src/utils/normalizeRecipe.js:1-17 | with a non-empty fresh id, normalising twice equals normalising once |
| Normalize.NormalizeFixesNormalForm | src/utils/normalizeRecipe.js:1-17 | a record already in normal form is returned unchanged |
| Flows.CostIgnoresFreeEntries | src/components/common/modals/RecipeModal.jsx:41-66 | entries that cost 0 can be dropped without changing the total |
| Flows.FinalWeighedRowsCostNothing | src/components/common/modals/IngredientSelectorModal.jsx:298-340 | every row handed back by the selector that is not in "un" costs 0 in the total |
| Flows.FinalListCostCountsOnlyUnits | src/components/common/modals/IngredientSelectorModal.jsx:319-340 | the total of a list handed back by the selector is the total of its "un" rows |
| Flows.FetchedEntryCostIsStockUnitCost | src/components/common/modals/RecipeModal.jsx:216-224 | a fetched entry's unit is the stock unit, so its cost as written equals the stock-unit cost |
| Flows.FetchedEntryWithoutUnitIsWeighed | src/components/common/modals/RecipeModal.jsx:219 | a fetched entry with no unit is labelled "unidade" and costed by weight |
| Flows.FetchWithMissingItemEmptiesRecipe | src/components/common/modals/RecipeModal.jsx:404-412 | after the selector closes on a saved recipe, a fetched row without its nested item leaves the recipe with no ingredients and a total of 0 |

## Left out

- **Network branches of the selector.** The branches taken when a recipe id exists (`idReceita`) call the backend. They are network I/O: the add branch at IngredientSelectorModal.jsx:197-242 and the remove branch at 272-293.
- **The other network calls.** The awaits in `handleSave` and `fetchIngredients`, and the stock load, are network I/O. `fetchIngredients` is modelled from the fetched rows onwards (`RecipeForm.FetchIngredients`), including the exception a row without its nested item raises. A recipe without an id, a failed request, an unsuccessful response and an empty recipe list all make it return `[]` before any row is read; those outcomes are not modelled.
- **Side effects.** `alert`, `window.confirm` and `console.log` are side effects only. `onClose` and the check for `onSaveIngredients` are callbacks into the parent. The builders assume the callback is present.
- **React plumbing.** Rendering, CSS and the React hook plumbing are left out. The state is an explicit record and each setter is a pure transition.
- **The edit-mode mapping.** The mapping of `initialRecipeData.ingredientes` in the edit-mode effect (RecipeModal.jsx:87-95) is not modelled, and neither are that effect's field resets.
- **Formatting.** `toFixed` and `toLocaleString` currency formatting are not modelled. The preview is modelled up to the number it formats.
- **IEEE-754 arithmetic.** All arithmetic is exact over `real`. A zero divisor gives `NaN` in place of an infinity.
- **String parsing.** `parseFloat` and `Number` on strings are abstract: each string carries the two numbers they read.
- **Search matching.** The search match (`toLowerCase().includes(...)`) is an abstract predicate on the name.
- **Infinite parses.** A parse never yields `Infinity` in this model: strings such as "Infinity" or "1e999" read as a finite number or NaN. Such a quantity would make a cost or preview infinite, and that case is not covered.
- **Ids of mixed type.** Ids are strings. The screens compare ids with `===` in `find`, `findIndex` and `filter`, which tells a numeric `5` from a string `"5"`. As keys of the local maps the two coincide. The model treats them as the same id everywhere.
- **Fresh ids.** `crypto.randomUUID()` is a parameter of `Normalize.NormalizeRecipe`.

## Findings

| source | as written | input that shows it | evidently intended | confidence | as-written member | corrected member |
|---|---|---|---|---|---|---|
| src/components/common/modals/RecipeModal.jsx:137 | a quantity is rejected when falsy or when it parses to at most 0; a NaN parse compares false, so it is not an error | an ingredient whose quantity is the text "abc"; validation passes and the payload sends `quantidadeUsada: NaN` | reject quantities that do not parse, as the yield check does with `isNaN` | not executed | RecipeForm.ValidateAcceptsUnparsableQuantity | RecipeForm.ValidateCheckedQuantitiesParse |
| src/components/common/modals/RecipeModal.jsx:46-47 | the stock unit and the unit of use both read `ingrediente.unidade`, so the conversion at line 59 is the identity | an item stocked in kg (price 10, 2 units of 1 kg) used as 500 g costs 2500; the same usage written as 0.5 kg costs 2.5 | convert the quantity from the unit of use to the stock unit, so the cost does not depend on the unit the usage is written in | not executed | RecipeCost.AsWrittenCostDependsOnUnitOfUse | RecipeCost.StockUnitCostIsUnitInvariant |

=== FILE: compatible.dfy ===
/** The unit choices offered for a stock item: `unidadesEnum` filtered down to
    the family of the item's base unit, so they come back in enum order.
 */
module CompatibleUnits {
  import opened Js
  import opened Convert

  /** unidadesEnum */
  const UnitsEnum: seq<string> := ["mg", "g", "kg", "ml", "l", "un"]

  /** The filter the volume cases apply: `u === "l" || u === "ml"`. */
  predicate KeepVolume(u: string) {
    u == "l" || u == "ml"
  }

  /** The filter the mass cases apply: `u === "kg" || u === "g" || u === "mg"`. */
  predicate KeepMass(u: string) {
    u == "kg" || u == "g" || u == "mg"
  }

  lemma FilterVolume()
    ensures Filter(UnitsEnum, KeepVolume) == ["ml", "l"]
  {
    assert Filter(["un"], KeepVolume) == [];
    assert Filter(["l", "un"], KeepVolume) == ["l"];
    assert Filter(["ml", "l", "un"], KeepVolume) == ["ml", "l"];
    assert Filter(["kg", "ml", "l", "un"], KeepVolume) == ["ml", "l"];
    assert Filter(["g", "kg", "ml", "l", "un"], KeepVolume) == ["ml", "l"];
  }

  lemma FilterMass()
    ensures Filter(UnitsEnum, KeepMass) == ["mg", "g", "kg"]
  {
    assert Filter(["un"], KeepMass) == [];
    assert Filter(["l", "un"], KeepMass) == [];
    assert Filter(["ml", "l", "un"], KeepMass) == [];
    assert Filter(["kg", "ml", "l", "un"], KeepMass) == ["kg"];
    assert Filter(["g", "kg", "ml", "l", "un"], KeepMass) == ["g", "kg"];
  }

  /** unidadesCompatíveis(unidadeBase): the enum filtered to the base unit's
      family, hence in enum order, or the base unit alone when it is "un" or
      not a unit at all. */
  function Compatible(base: string): (r: seq<string>)
    ensures base in r
    ensures base == "mg" || base == "g" || base == "kg" ==> r == ["mg", "g", "kg"]
    ensures base == "ml" || base == "l" ==> r == ["ml", "l"]
    ensures base == "un" ==> r == ["un"]
    ensures FromName(base).None? ==> r == [base]
  {
    FilterVolume();
    FilterMass();
    if base == "l" || base == "ml" then Filter(UnitsEnum, KeepVolume)
    else if base == "kg" || base == "g" || base == "mg" then Filter(UnitsEnum, KeepMass)
    else if base == "un" then ["un"]
    else [base]
  }

  /** Every unit offered for a base unit of the enum is a unit of the same
      family. */
  lemma CompatibleStaysInFamily(b: Unit, u: string)
    requires u in Compatible(Name(b))
    ensures FromName(u).Some? && FamilyOf(FromName(u).value) == FamilyOf(b)
  {
    var a := OfferedUnit(b, u);
    FromNameOfName(a);
  }

  /** A unit is offered for a base unit exactly when the two are in the same
      family, so every offered unit converts to the base by a recognised
      scaling (ConvertMatchesScale). */
  lemma CompatibleIffSameFamily(a: Unit, b: Unit)
    ensures Name(a) in Compatible(Name(b)) <==> FamilyOf(a) == FamilyOf(b)
  {
    if Name(a) in Compatible(Name(b)) {
      var a' := OfferedUnit(b, Name(a));
      assert a' == a;
    } else {
      if FamilyOf(a) == FamilyOf(b) {
        CompatibleCoversFamily(b, a);
      }
    }
  }

  /** The unit an offered name stands for, in the base unit's family. */
  lemma OfferedUnit(b: Unit, u: string) returns (a: Unit)
    requires u in Compatible(Name(b))
    ensures Name(a) == u && FamilyOf(a) == FamilyOf(b)
  {
    var r := Compatible(Name(b));
    if FamilyOf(b) == Mass {
      assert r == ["mg", "g", "kg"];
      a := if u == "mg" then Mg else if u == "g" then G else Kg;
    } else if FamilyOf(b) == Volume {
      assert r == ["ml", "l"];
      a := if u == "ml" then Ml else L;
    } else {
      assert b == Un && r == ["un"];
      a := Un;
    }
  }

  /** Conversely, every unit of the base unit's family is offered. */
  lemma CompatibleCoversFamily(b: Unit, a: Unit)
    requires FamilyOf(a) == FamilyOf(b)
    ensures Name(a) in Compatible(Name(b))
  {
  }
}

=== FILE: convert.dfy ===
/** `convertToBase`: re-expresses a quantity given in one measurement unit in
    another unit of the same family, and leaves every other pairing alone.
 */
module Convert {
  import opened Js

  /** The measurement units the screens offer, in the order of their enum. */
  datatype Unit = Mg | G | Kg | Ml | L | Un

  datatype Family = Mass | Volume | Count

  function Name(u: Unit): string {
    match u
    case Mg => "mg"
    case G => "g"
    case Kg => "kg"
    case Ml => "ml"
    case L => "l"
    case Un => "un"
  }

  /** Reads a unit name; every other string is not a unit. */
  function FromName(s: string): (r: Option<Unit>)
    ensures r.Some? ==> Name(r.value) == s
    ensures forall u: Unit :: s == Name(u) ==> r == Some(u)
  {
    if s == "mg" then Some(Mg)
    else if s == "g" then Some(G)
    else if s == "kg" then Some(Kg)
    else if s == "ml" then Some(Ml)
    else if s == "l" then Some(L)
    else if s == "un" then Some(Un)
    else None
  }

  /** Reading a unit's name gives the unit back. */
  lemma FromNameOfName(u: Unit)
    ensures FromName(Name(u)) == Some(u)
  {
  }

  function FamilyOf(u: Unit): Family {
    match u
    case Mg | G | Kg => Mass
    case Ml | L => Volume
    case Un => Count
  }

  /** Size of a unit relative to the smallest unit of its family. */
  function Scale(u: Unit): (s: real)
    ensures s > 0.0
  {
    match u
    case Mg => 1.0
    case G => 1000.0
    case Kg => 1000000.0
    case Ml => 1.0
    case L => 1000.0
    case Un => 1.0
  }

  /** convertToBase(quantidade, unidadeAtual, unidadeBase): the quantity
      `quantidade`, given in `current`, expressed in `base`. Total over all
      strings; a pairing it does not recognise returns the quantity unchanged.
      The result is a positive multiple of the input, so zero and sign are kept. */
  function ConvertToBase(quantidade: real, current: string, base: string): (r: real)
    ensures r == 0.0 <==> quantidade == 0.0
    ensures r > 0.0 <==> quantidade > 0.0
    ensures r < 0.0 <==> quantidade < 0.0
  {
    if current == base then quantidade
    // volume
    else if base == "l" && current == "ml" then quantidade / 1000.0
    else if base == "ml" && current == "l" then quantidade * 1000.0
    // mass
    else if base == "kg" && current == "g" then quantidade / 1000.0
    else if base == "kg" && current == "mg" then quantidade / 1000000.0
    else if base == "g" && current == "kg" then quantidade * 1000.0
    else if base == "g" && current == "mg" then quantidade / 1000.0
    else if base == "mg" && current == "g" then quantidade * 1000.0
    else if base == "mg" && current == "kg" then quantidade * 1000000.0
    // count
    else if base == "un" && current == "un" then quantidade
    // unrecognised pairing
    else quantidade
  }

  /** The conversion table agrees with the scale of each unit: within a family
      the quantity is multiplied by the ratio of the two scales, and across
      families it is unchanged. */
  lemma ConvertMatchesScale(q: real, a: Unit, b: Unit)
    ensures FamilyOf(a) == FamilyOf(b) ==>
              ConvertToBase(q, Name(a), Name(b)) == q * Scale(a) / Scale(b)
    ensures FamilyOf(a) != FamilyOf(b) ==> ConvertToBase(q, Name(a), Name(b)) == q
  {
  }

  /** Identity holds for every string, including those that name no unit. */
  lemma ConvertIdentity(q: real, u: string)
    ensures ConvertToBase(q, u, u) == q
  {
  }

  /** A string that names no unit on either side leaves the quantity alone,
      as does a pairing across families; neither is an error. */
  lemma ConvertUnrecognised(q: real, current: string, base: string)
    requires FromName(current).None? || FromName(base).None?
             || FamilyOf(FromName(current).value) != FamilyOf(FromName(base).value)
    ensures ConvertToBase(q, current, base) == q
  {
    if FromName(current).Some? && FromName(base).Some? {
      ConvertMatchesScale(q, FromName(current).value, FromName(base).value);
    }
  }

  /** Volume: ml to l divides by 1000, l to ml multiplies by 1000. */
  lemma VolumeFactors(q: real)
    ensures ConvertToBase(q, "ml", "l") * 1000.0 == q
    ensures ConvertToBase(q, "l", "ml") == q * 1000.0
  {
  }

  /** Mass: the six conversions between mg, g and kg. */
  lemma MassFactors(q: real)
    ensures ConvertToBase(q, "g", "kg") * 1000.0 == q
    ensures ConvertToBase(q, "mg", "kg") * 1000000.0 == q
    ensures ConvertToBase(q, "kg", "g") == q * 1000.0
    ensures ConvertToBase(q, "mg", "g") * 1000.0 == q
    ensures ConvertToBase(q, "g", "mg") == q * 1000.0
    ensures ConvertToBase(q, "kg", "mg") == q * 1000000.0
  {
  }

  /** Scaling by s1/s2 and then by s2/s1 gives the quantity back. */
  lemma ScaleRoundTrip(q: real, s1: real, s2: real)
    requires s1 > 0.0 && s2 > 0.0
    ensures q * s1 / s2 * s2 / s1 == q
  {
    assert q * s1 / s2 * s2 == q * s1;
  }

  /** Scaling by s1/s2 and then by s2/s3 is scaling by s1/s3. */
  lemma ScaleCompose(q: real, s1: real, s2: real, s3: real)
    requires s1 > 0.0 && s2 > 0.0 && s3 > 0.0
    ensures q * s1 / s2 * s2 / s3 == q * s1 / s3
  {
    assert q * s1 / s2 * s2 == q * s1;
  }

  /** Converting to another unit of the family and back returns the quantity. */
  lemma ConvertRoundTrip(q: real, a: Unit, b: Unit)
    requires FamilyOf(a) == FamilyOf(b)
    ensures ConvertToBase(ConvertToBase(q, Name(a), Name(b)), Name(b), Name(a)) == q
  {
    var once := ConvertToBase(q, Name(a), Name(b));
    ConvertMatchesScale(q, a, b);
    ConvertMatchesScale(once, b, a);
    ScaleRoundTrip(q, Scale(a), Scale(b));
  }

  /** Two conversions within a family compose into the direct conversion. */
  lemma ConvertCompose(q: real, a: Unit, b: Unit, c: Unit)
    requires FamilyOf(a) == FamilyOf(b) == FamilyOf(c)
    ensures ConvertToBase(ConvertToBase(q, Name(a), Name(b)), Name(b), Name(c))
            == ConvertToBase(q, Name(a), Name(c))
  {
    var once := ConvertToBase(q, Name(a), Name(b));
    ConvertMatchesScale(q, a, b);
    ConvertMatchesScale(once, b, c);
    ConvertMatchesScale(q, a, c);
    ScaleCompose(q, Scale(a), Scale(b), Scale(c));
  }

  /** mg to g followed by g to kg is mg to kg. */
  lemma MassChain(q: real)
    ensures ConvertToBase(ConvertToBase(q, "mg", "g"), "g", "kg") == ConvertToBase(q, "mg", "kg")
  {
    ConvertCompose(q, Mg, G, Kg);
  }
}

=== FILE: cost.dfy ===
/** recalcularCusto: the production cost of a recipe, the in-order sum of the
    cost of each ingredient entry. Every numeric field is read fail-soft:
    `parseFloat(x) || default`, so a missing, non-numeric or zero field takes
    the default.
 */
module RecipeCost {
  import opened Js
  import opened Items
  import opened Convert

  /** `parseFloat(precoCusto) || 0` */
  function PriceOf(e: Item): real {
    NumOr(ParseFloat(e.precoCusto), 0.0)
  }

  /** `parseFloat(unidades) || 1`: never 0, so it is a safe divisor. */
  function PackUnitsOf(e: Item): (u: real)
    ensures u != 0.0
  {
    NumOr(ParseFloat(e.unidades), 1.0)
  }

  /** `parseFloat(pesoPorUnidade) || 0` */
  function WeightOf(e: Item): real {
    NumOr(ParseFloat(e.pesoPorUnidade), 0.0)
  }

  /** `parseFloat(quantidadeUsada) || 0` */
  function QuantityOf(e: Item): real {
    NumOr(ParseFloat(e.quantidadeUsada), 0.0)
  }

  /** `pesoTotalEstoque > 0 ? precoCusto / pesoTotalEstoque : 0`: the price per
      unit of weight, guarded against a zero pack weight. */
  function PricePerWeight(e: Item): real {
    var pesoTotalEstoque := PackUnitsOf(e) * WeightOf(e);
    if pesoTotalEstoque > 0.0 then PriceOf(e) / pesoTotalEstoque else 0.0
  }

  /** The cost of one entry as the forEach body computes it. Both the stock
      unit and the unit of use are read from the same field, `unidade`. */
  function EntryCost(e: Item): real {
    var unidadeEstoque := e.unidade;
    var unidadeUsada := OrText(e.unidade, unidadeEstoque);
    if unidadeEstoque == "un" then
      var precoUnitario := PriceOf(e) / PackUnitsOf(e);
      precoUnitario * QuantityOf(e)
    else
      var qtdConvertida := ConvertToBase(QuantityOf(e), unidadeUsada, unidadeEstoque);
      PricePerWeight(e) * qtdConvertida
  }

  /** The total of a list of entries, accumulated from the first entry to the
      last. */
  function Cost(xs: seq<Item>): real {
    if |xs| == 0 then 0.0 else Cost(xs[..|xs| - 1]) + EntryCost(xs[|xs| - 1])
  }

  /** recalcularCusto, returning the total it stores with setCustoProducao. */
  method RecalcularCusto(ingredientes: seq<Item>) returns (total: real)
    ensures total == Cost(ingredientes)
  {
    total := 0.0;
    var i := 0;
    while i < |ingredientes|
      invariant 0 <= i <= |ingredientes|
      invariant total == Cost(ingredientes[..i])
    {
      assert ingredientes[..i + 1][..i] == ingredientes[..i];
      total := total + EntryCost(ingredientes[i]);
      i := i + 1;
    }
    assert ingredientes[..i] == ingredientes;
  }

  /** Missing and unreadable fields take their defaults: price and quantity 0,
      pack count 1 (also when it reads as 0), weight per unit 0. */
  lemma FailSoftDefaults(e: Item)
    ensures ParseFloat(e.precoCusto).NaN? ==> PriceOf(e) == 0.0
    ensures ParseFloat(e.quantidadeUsada).NaN? ==> QuantityOf(e) == 0.0
    ensures !NumTruthy(ParseFloat(e.unidades)) ==> PackUnitsOf(e) == 1.0
    ensures ParseFloat(e.pesoPorUnidade).NaN? ==> WeightOf(e) == 0.0
    ensures e.pesoPorUnidade == Undefined ==> WeightOf(e) == 0.0
  {
  }

  /** An entry counted in units costs its share of the pack price times the
      quantity; the divisor is never 0. */
  lemma CountEntryCost(e: Item)
    requires e.unidade == "un"
    ensures PackUnitsOf(e) != 0.0
    ensures EntryCost(e) == (PriceOf(e) / PackUnitsOf(e)) * QuantityOf(e)
  {
  }

  /** The conversion step of a weighed entry converts from `unidade` to
      `unidade`, so it is the identity: a weighed entry costs the price per
      unit of weight times the quantity as entered, whatever unit it is in. */
  lemma WeighedEntryUsesQuantityAsIs(e: Item)
    requires e.unidade != "un"
    ensures ConvertToBase(QuantityOf(e), OrText(e.unidade, e.unidade), e.unidade) == QuantityOf(e)
    ensures EntryCost(e) == PricePerWeight(e) * QuantityOf(e)
  {
  }

  /** A weighed entry with a positive pack weight costs the price per unit of
      weight times the quantity. */
  lemma WeighedEntryCost(e: Item)
    requires e.unidade != "un"
    requires PackUnitsOf(e) * WeightOf(e) > 0.0
    ensures EntryCost(e) == PriceOf(e) / (PackUnitsOf(e) * WeightOf(e)) * QuantityOf(e)
  {
  }

  /** The zero-division guard: a weighed entry whose pack weight is not
      positive (for instance, no `pesoPorUnidade`) costs exactly 0. */
  lemma WeighedEntryGuard(e: Item)
    requires e.unidade != "un"
    requires PackUnitsOf(e) * WeightOf(e) <= 0.0
    ensures EntryCost(e) == 0.0
  {
  }

  /** The total of a concatenation is the sum of the totals. */
  lemma {:induction false} CostAppend(xs: seq<Item>, ys: seq<Item>)
    ensures Cost(xs + ys) == Cost(xs) + Cost(ys)
  {
    if |ys| == 0 {
      assert xs + ys == xs;
    } else {
      var init := ys[..|ys| - 1];
      CostAppend(xs, init);
      assert (xs + ys)[..|xs + ys| - 1] == xs + init;
    }
  }

  /** The total of no entries is 0 and of one entry is that entry's cost. */
  lemma CostSmall(e: Item)
    ensures Cost([]) == 0.0
    ensures Cost([e]) == EntryCost(e)
  {
    assert [e][..0] == [];
  }

  /** The total does not depend on where an entry sits: moving the first entry
      to the end leaves it unchanged. */
  lemma CostRotate(xs: seq<Item>)
    requires |xs| > 0
    ensures Cost(xs[1..] + [xs[0]]) == Cost(xs)
  {
    CostAppend(xs[1..], [xs[0]]);
    CostAppend([xs[0]], xs[1..]);
    CostSmall(xs[0]);
    assert [xs[0]] + xs[1..] == xs;
  }

  // ----- the intended behaviour: the quantity converted to the stock unit -----

  /** The entry cost with the unit of use (`unidade`) converted to the stock
      unit `stockUnit`, as the stock-unit comment in recalcularCusto intends. */
  function StockUnitEntryCost(e: Item, stockUnit: string): real {
    var unidadeUsada := OrText(e.unidade, stockUnit);
    if stockUnit == "un" then
      (PriceOf(e) / PackUnitsOf(e)) * QuantityOf(e)
    else
      var qtdConvertida := ConvertToBase(QuantityOf(e), unidadeUsada, stockUnit);
      PricePerWeight(e) * qtdConvertida
  }

  /** When the unit of use is the stock unit, the two definitions agree, blank
      unit included: this covers the edit flow, where `unidade` is filled with
      the stock unit. */
  lemma StockUnitCostAgrees(e: Item)
    ensures StockUnitEntryCost(e, e.unidade) == EntryCost(e)
  {
  }

  /** The same usage re-expressed in another unit of the stock unit's family
      (the quantity converted accordingly) costs the same. */
  lemma StockUnitCostIsUnitInvariant(e: Item, a: Unit, b: Unit, s: Unit, q: real)
    requires FamilyOf(a) == FamilyOf(s) && FamilyOf(b) == FamilyOf(s)
    ensures StockUnitEntryCost(e.(unidade := Name(a), quantidadeUsada := Rendered(q)), Name(s))
            == StockUnitEntryCost(e.(unidade := Name(b), quantidadeUsada := Rendered(ConvertToBase(q, Name(a), Name(b)))), Name(s))
  {
    var ea := e.(unidade := Name(a), quantidadeUsada := Rendered(q));
    var eb := e.(unidade := Name(b), quantidadeUsada := Rendered(ConvertToBase(q, Name(a), Name(b))));
    assert QuantityOf(ea) == q;
    assert QuantityOf(eb) == ConvertToBase(q, Name(a), Name(b));
    if s == Un {
      assert a == Un && b == Un;
      assert eb == ea;
    } else {
      assert PricePerWeight(ea) == PricePerWeight(eb);
      ConvertCompose(q, a, b, s);
    }
  }

  /** 500 g of an item sold in kg at 10 for 2 units of 1 kg should cost 2.5.
      The as-written entry reads the stock unit from `unidade` and yields 2500;
      the same usage written as 0.5 kg yields 2.5. */
  lemma AsWrittenCostDependsOnUnitOfUse()
    ensures var base := Item("flour", "flour", Undefined, Number(Finite(10.0)), "", "", "kg", "",
                             Undefined, Number(Finite(2.0)), Number(Finite(1.0)));
            var inGrams := base.(unidade := "g", quantidadeUsada := Rendered(500.0));
            var inKilos := base.(unidade := "kg", quantidadeUsada := Rendered(0.5));
            && EntryCost(inGrams) == 2500.0
            && EntryCost(inKilos) == 2.5
            && StockUnitEntryCost(inGrams, "kg") == 2.5
            && StockUnitEntryCost(inKilos, "kg") == 2.5
  {
  }
}

=== FILE: flows.dfy ===
/** Properties of the screens taken together: what the recipe total makes of
    the lists the selector hands back and of the entries a fetch loads.
 */
module Flows {
  import opened Js
  import opened Items
  import opened Convert
  import opened Selector
  import opened RecipeCost
  import opened RecipeForm

  /** A list costs the same as its entries satisfying `p`, when every other
      entry costs 0. */
  lemma {:induction false} CostIgnoresFreeEntries(xs: seq<Item>, p: Item -> bool)
    requires forall x :: x in xs && !p(x) ==> EntryCost(x) == 0.0
    ensures Cost(xs) == Cost(Filter(xs, p))
  {
    if |xs| > 0 {
      var head, tail := xs[0], xs[1..];
      assert forall x :: x in tail ==> x in xs;
      CostIgnoresFreeEntries(tail, p);
      var rest := Filter(tail, p);
      assert xs == [head] + tail;
      CostAppend([head], tail);
      CostSmall(head);
      assert Cost(xs) == EntryCost(head) + Cost(rest);
      if p(head) {
        assert Filter(xs, p) == [head] + rest;
        CostAppend([head], rest);
      } else {
        assert Filter(xs, p) == rest;
      }
    }
  }

  /** The rows the selector hands back carry no `pesoPorUnidade`, so every row
      not counted in "un" falls under the zero-weight guard and costs 0. */
  lemma FinalWeighedRowsCostNothing(s: State, keepUnidades: bool)
    ensures forall i :: 0 <= i < |FinalList(s, keepUnidades)| && FinalList(s, keepUnidades)[i].unidade != "un" ==>
              EntryCost(FinalList(s, keepUnidades)[i]) == 0.0
  {
    var r := FinalList(s, keepUnidades);
    forall i | 0 <= i < |r| && r[i].unidade != "un"
      ensures EntryCost(r[i]) == 0.0
    {
      FailSoftDefaults(r[i]);
      WeighedEntryGuard(r[i]);
    }
  }

  /** Hence the total of a freshly selected list is the total of its "un" rows
      alone, whatever was typed for the weighed ones. */
  lemma FinalListCostCountsOnlyUnits(s: State, keepUnidades: bool)
    ensures Cost(FinalList(s, keepUnidades)) == Cost(Filter(FinalList(s, keepUnidades), (x: Item) => x.unidade == "un"))
  {
    var r := FinalList(s, keepUnidades);
    FinalWeighedRowsCostNothing(s, keepUnidades);
    forall x | x in r && x.unidade != "un" ensures EntryCost(x) == 0.0 {
      var i :| 0 <= i < |r| && r[i] == x;
    }
    CostIgnoresFreeEntries(r, (x: Item) => x.unidade == "un");
  }

  /** A fetched entry's `unidade` is the stock unit whenever the stock item has
      one, so on loaded recipes the as-written cost and the stock-unit cost
      coincide. */
  lemma FetchedEntryCostIsStockUnitCost(row: FetchedRow)
    requires row.ingrediente.Some? && row.ingrediente.value.unidadeMedida != ""
    ensures EntryCost(FetchedEntry(row).value)
            == StockUnitEntryCost(FetchedEntry(row).value, row.ingrediente.value.unidadeMedida)
  {
    StockUnitCostAgrees(FetchedEntry(row).value);
  }

  /** A fetched entry with no unit at all is labelled "unidade", not "un", so it
      is costed by weight rather than by count. */
  lemma FetchedEntryWithoutUnitIsWeighed(row: FetchedRow)
    requires row.ingrediente.Some? && row.ingrediente.value.unidadeMedida == "" && row.unidade == ""
    ensures FetchedEntry(row).value.unidade == "unidade"
    ensures var e := FetchedEntry(row).value;
            PackUnitsOf(e) * WeightOf(e) > 0.0 ==>
              EntryCost(e) == PriceOf(e) / (PackUnitsOf(e) * WeightOf(e)) * QuantityOf(e)
  {
    var e := FetchedEntry(row).value;
    if PackUnitsOf(e) * WeightOf(e) > 0.0 {
      WeighedEntryCost(e);
    }
  }

  /** After the selector closes on a saved recipe, the fetched list replaces the
      recipe's ingredients and the total is recalculated from it. A fetched
      row without its nested item makes the fetch yield `[]`, so the recipe is
      left with no ingredients and a total of 0. */
  lemma FetchWithMissingItemEmptiesRecipe(rows: seq<FetchedRow>)
    requires exists i :: 0 <= i < |rows| && rows[i].ingrediente.None?
    ensures FetchIngredients(rows) == []
    ensures Cost(FetchIngredients(rows)) == 0.0
  {
  }
}

=== FILE: items.dfy ===
/** The ingredient objects both modals pass around. In the screens they are
    plain objects with optional fields; here every field the core reads is
    present, `""` standing for a missing string and `Undefined` for a missing
    scalar.
 */
module Items {
  import opened Js

  type Id = string

  /** One ingredient object: a stock item, an entry staged in the selector, or
      an entry of the recipe being edited. */
  datatype Item = Item(
    id: Id,
    nome: string,
    preco: Raw,            // price carried over from an earlier selection
    precoCusto: Raw,       // price of the whole stock pack
    unidade: string,       // unit of use (or, after a fetch, of the stock)
    unidadeOriginal: string,
    unidadeMedida: string, // unit of the stock item
    unidadeDeMedida: string,
    quantidadeUsada: Raw,
    unidades: Raw,         // number of packs/units in stock
    pesoPorUnidade: Raw    // weight or volume of one unit
  )

  /** The ids of a list, as a set. */
  function IdSet(xs: seq<Item>): set<Id> {
    set i | 0 <= i < |xs| :: xs[i].id
  }

  lemma IdSetCons(x: Item, xs: seq<Item>)
    ensures IdSet([x] + xs) == {x.id} + IdSet(xs)
  {
    var ys := [x] + xs;
    forall y | y in IdSet(ys) ensures y in {x.id} + IdSet(xs) {
      var i :| 0 <= i < |ys| && ys[i].id == y;
      if i > 0 { assert ys[i] == xs[i - 1]; }
    }
    forall y | y in {x.id} + IdSet(xs) ensures y in IdSet(ys) {
      if y == x.id {
        assert ys[0].id == y;
      } else {
        var i :| 0 <= i < |xs| && xs[i].id == y;
        assert ys[i + 1].id == y;
      }
    }
  }

  lemma IdSetSnoc(xs: seq<Item>, x: Item)
    ensures IdSet(xs + [x]) == IdSet(xs) + {x.id}
  {
    var ys := xs + [x];
    forall y | y in IdSet(ys) ensures y in IdSet(xs) + {x.id} {
      var i :| 0 <= i < |ys| && ys[i].id == y;
      if i < |xs| { assert ys[i] == xs[i]; }
    }
    forall y | y in IdSet(xs) ensures y in IdSet(ys) {
      var i :| 0 <= i < |xs| && xs[i].id == y;
      assert ys[i].id == y;
    }
    assert ys[|xs|].id == x.id;
  }

  /** No id occurs twice in the list. */
  predicate UniqueIds(xs: seq<Item>) {
    forall i, j :: 0 <= i < j < |xs| ==> xs[i].id != xs[j].id
  }

  /** A list headed by `x` has unique ids exactly when its tail does and does
      not hold `x`'s id. */
  lemma UniqueIdsCons(x: Item, xs: seq<Item>)
    ensures UniqueIds([x] + xs) <==> x.id !in IdSet(xs) && UniqueIds(xs)
  {
    var ys := [x] + xs;
    if UniqueIds(ys) {
      forall i | 0 <= i < |xs| ensures xs[i].id != x.id {
        assert ys[0] == x && ys[i + 1] == xs[i];
      }
      forall i, j | 0 <= i < j < |xs| ensures xs[i].id != xs[j].id {
        assert ys[i + 1] == xs[i] && ys[j + 1] == xs[j];
      }
    }
    if x.id !in IdSet(xs) && UniqueIds(xs) {
      forall i, j | 0 <= i < j < |ys| ensures ys[i].id != ys[j].id {
        assert ys[j] == xs[j - 1];
        if i > 0 { assert ys[i] == xs[i - 1]; }
      }
    }
  }

  /** A list whose entries all occur in another has no ids the other lacks. */
  lemma IdSetMono(a: seq<Item>, b: seq<Item>)
    requires forall y :: y in a ==> y in b
    ensures IdSet(a) <= IdSet(b)
  {
    forall z | z in IdSet(a) ensures z in IdSet(b) {
      var i :| 0 <= i < |a| && a[i].id == z;
      assert a[i] in b;
      var j :| 0 <= j < |b| && b[j] == a[i];
    }
  }

  /** The index of the last element of `xs` with this id: the element the
      `estoqueMap` build keeps, since later writes overwrite earlier ones. */
  predicate IsLastWithId(xs: seq<Item>, i: int) {
    0 <= i < |xs| && forall j :: i < j < |xs| ==> xs[j].id != xs[i].id
  }

  /** estoqueMap: the stock list indexed by id, as `forEach` writing
      `map[item.id] = item` builds it. */
  function StockIndex(stock: seq<Item>): (m: map<Id, Item>)
    ensures m.Keys == IdSet(stock)
    ensures forall i :: IsLastWithId(stock, i) ==> m[stock[i].id] == stock[i]
  {
    if |stock| == 0 then map[]
    else
      var init, last := stock[..|stock| - 1], stock[|stock| - 1];
      assert stock == init + [last];
      IdSetSnoc(init, last);
      forall i | IsLastWithId(stock, i) && i < |stock| - 1
        ensures IsLastWithId(init, i)
      {
      }
      StockIndex(init)[last.id := last]
  }

  /** `estoqueMap[id]`: the stock item under this id, `None` (undefined) when
      there is none. */
  function StockOf(estoqueMap: map<Id, Item>, id: Id): Option<Item> {
    if id in estoqueMap then Some(estoqueMap[id]) else None
  }

  /** `stock.find(s => s.id === id)`: the first element with this id. */
  function FindFirst(stock: seq<Item>, id: Id): (r: Option<Item>)
    ensures r.None? <==> id !in IdSet(stock)
    ensures r.Some? ==> exists i :: 0 <= i < |stock| && stock[i] == r.value
                          && r.value.id == id && forall j :: 0 <= j < i ==> stock[j].id != id
  {
    if |stock| == 0 then None
    else if stock[0].id == id then Some(stock[0])
    else
      var r := FindFirst(stock[1..], id);
      assert stock == [stock[0]] + stock[1..];
      IdSetCons(stock[0], stock[1..]);
      if r.Some? then
        var i :| 0 <= i < |stock[1..]| && stock[1..][i] == r.value
                 && r.value.id == id && forall j :: 0 <= j < i ==> stock[1..][j].id != id;
        assert stock[i + 1] == r.value;
        r
      else r
  }
}

=== FILE: js.dfy ===
/** JavaScript values as the recipe-costing screens handle them.

    The screens pass around plain objects whose fields may be missing, numbers,
    NaN or strings, and read them through `||`, `parseFloat`, `Number` and
    `String`. This module fixes one exact model of those values over `real`
    (no IEEE-754 rounding) and of the coercions the screens use.
 */
module Js {

  datatype Option<+T> = None | Some(value: T) {
    function GetOr(default: T): T {
      match this
      case Some(v) => v
      case None => default
    }
  }

  /** A JavaScript number. `NaN` also stands for the infinities a zero divisor
      produces; parsing never yields an infinity in this model. */
  datatype Num = Finite(v: real) | NaN

  /** A string together with what `parseFloat` and `Number` read from it.
      The parses are abstract: the model does not implement number syntax. */
  datatype Text = Text(chars: string, float: Num, number: Num)

  /** A scalar field of a plain JavaScript object. `Rendered(v)` is the string
      that `String(v)` produces for a finite number `v`. */
  datatype Raw =
    | Undefined
    | Null
    | Number(n: Num)
    | Str(t: Text)
    | Rendered(v: real)

  /** The empty string, which both parses read as described by the language:
      `parseFloat("")` is NaN and `Number("")` is 0. */
  const EmptyText: Text := Text("", NaN, Finite(0.0))

  predicate NumTruthy(n: Num) {
    n.Finite? && n.v != 0.0
  }

  /** JavaScript truthiness of a field. */
  predicate Truthy(x: Raw) {
    match x
    case Undefined => false
    case Null => false
    case Number(n) => NumTruthy(n)
    case Str(t) => t.chars != ""
    case Rendered(_) => true
  }

  /** `a || b` on fields. */
  function Or(a: Raw, b: Raw): (r: Raw)
    ensures Truthy(r) <==> Truthy(a) || Truthy(b)
    ensures r == a || r == b
  {
    if Truthy(a) then a else b
  }

  /** `a || b` on string-or-undefined fields; "" stands for every falsy value. */
  function OrText(a: string, b: string): (r: string)
    ensures r != "" <==> a != "" || b != ""
    ensures a != "" ==> r == a
  {
    if a != "" then a else b
  }

  /** `n || d` on a number that is then used as a number: NaN and 0 fall back. */
  function NumOr(n: Num, d: real): (r: real)
    ensures d != 0.0 ==> r != 0.0
    ensures NumTruthy(n) ==> r == n.v
    ensures !NumTruthy(n) ==> r == d
  {
    if NumTruthy(n) then n.v else d
  }

  /** `parseFloat(x)`. */
  function ParseFloat(x: Raw): Num {
    match x
    case Undefined => NaN
    case Null => NaN
    case Number(n) => n
    case Str(t) => t.float
    case Rendered(v) => Finite(v)
  }

  /** `Number(x)`, also the coercion of `x > 0` and of `x / y`. */
  function ToNumber(x: Raw): Num {
    match x
    case Undefined => NaN
    case Null => Finite(0.0)
    case Number(n) => n
    case Str(t) => t.number
    case Rendered(v) => Finite(v)
  }

  /** `String(x)`. */
  function ToText(x: Raw): (r: Raw)
    ensures r.Str? || r.Rendered?
    ensures ParseFloat(r) == ParseFloat(x) || x == Null
  {
    match x
    case Undefined => Str(Text("undefined", NaN, NaN))
    case Null => Str(Text("null", NaN, NaN))
    case Number(Finite(v)) => Rendered(v)
    case Number(NaN) => Str(Text("NaN", NaN, NaN))
    case Str(t) => x
    case Rendered(_) => x
  }

  /** `x > 0` with JavaScript's coercion of the left operand. */
  predicate GreaterThanZero(x: Raw) {
    var n := ToNumber(x);
    n.Finite? && n.v > 0.0
  }

  /** `Math.max(n, 0)`: NaN stays NaN. */
  function ClampAtZero(n: Num): (r: Num)
    ensures r.Finite? <==> n.Finite?
    ensures r.Finite? ==> r.v >= 0.0 && r.v >= n.v && (r.v == n.v || r.v == 0.0)
  {
    match n
    case NaN => NaN
    case Finite(v) => if v > 0.0 then n else Finite(0.0)
  }

  function Div(a: Num, b: Num): (r: Num)
    ensures r.Finite? <==> a.Finite? && b.Finite? && b.v != 0.0
    ensures r.Finite? ==> r.v * b.v == a.v
  {
    if a.Finite? && b.Finite? && b.v != 0.0 then Finite(a.v / b.v) else NaN
  }

  function Mul(a: Num, b: Num): (r: Num)
    ensures r.Finite? <==> a.Finite? && b.Finite?
  {
    if a.Finite? && b.Finite? then Finite(a.v * b.v) else NaN
  }
  /** `Array.prototype.filter`: keeps, in order, the elements `keep` accepts. */
  function Filter<T(==,!new)>(xs: seq<T>, keep: T -> bool): (r: seq<T>)
    ensures forall x :: x in r <==> x in xs && keep(x)
    ensures |r| <= |xs|
  {
    if |xs| == 0 then []
    else if keep(xs[0]) then [xs[0]] + Filter(xs[1..], keep)
    else Filter(xs[1..], keep)
  }

  /** Filtering keeps order: the filter of a concatenation is the
      concatenation of the filters, and a single element is kept or dropped. */
  lemma {:induction false} FilterAppend<T(!new)>(xs: seq<T>, ys: seq<T>, keep: T -> bool)
    ensures Filter(xs + ys, keep) == Filter(xs, keep) + Filter(ys, keep)
    ensures Filter([], keep) == []
    ensures forall x :: Filter([x], keep) == if keep(x) then [x] else []
  {
    forall x ensures Filter([x], keep) == if keep(x) then [x] else [] {
      FilterCons(x, [], keep);
      assert [x] + [] == [x];
    }
    if |xs| == 0 {
      assert xs + ys == ys;
    } else {
      var x, rest := xs[0], xs[1..];
      var head := if keep(x) then [x] else [];
      assert xs + ys == [x] + (rest + ys) by {
        assert xs == [x] + rest;
      }
      calc {
        Filter(xs + ys, keep);
      == { FilterCons(x, rest + ys, keep); }
        head + Filter(rest + ys, keep);
      == { FilterAppend(rest, ys, keep); }
        head + (Filter(rest, keep) + Filter(ys, keep));
      ==
        (head + Filter(rest, keep)) + Filter(ys, keep);
      == { assert xs == [x] + rest; FilterCons(x, rest, keep); }
        Filter(xs, keep) + Filter(ys, keep);
      }
    }
  }

  /** One step of the filter: the head is kept exactly when it passes. */
  lemma FilterCons<T(!new)>(x: T, xs: seq<T>, keep: T -> bool)
    ensures Filter([x] + xs, keep) == (if keep(x) then [x] else []) + Filter(xs, keep)
  {
    var ys := [x] + xs;
    assert ys[0] == x && ys[1..] == xs;
  }

  /** A filter that every element passes returns the list itself. */
  lemma {:induction false} FilterKeepsAll<T(!new)>(xs: seq<T>, keep: T -> bool)
    requires forall x :: x in xs ==> keep(x)
    ensures Filter(xs, keep) == xs
  {
    if |xs| > 0 {
      assert forall x :: x in xs[1..] ==> x in xs;
      FilterKeepsAll(xs[1..], keep);
      FilterCons(xs[0], xs[1..], keep);
      assert xs == [xs[0]] + xs[1..];
    }
  }

  /** Filters with predicates that agree on the list give the same result. */
  lemma {:induction false} FilterAgree<T(!new)>(xs: seq<T>, p: T -> bool, q: T -> bool)
    requires forall x :: x in xs ==> p(x) == q(x)
    ensures Filter(xs, p) == Filter(xs, q)
  {
    if |xs| > 0 {
      FilterAgree(xs[1..], p, q);
    }
  }
}

=== FILE: normalize.dfy ===
/** normalizarReceita: fills in defaults for a recipe record received from the
    backend, so the screens can rely on every field.
 */
module Normalize {
  import opened Js

  /** A field that should hold an array: either an array or any other value. */
  datatype ArrayField<T> = Array(items: seq<T>) | NotArray(value: Raw)

  /** A recipe record. `id` is `""` when missing or otherwise falsy; the element
      types of the two lists are left open since normalisation does not look
      inside them. */
  datatype Recipe<I, P> = Recipe(
    id: string,
    nome: Raw,
    rendimento: Raw,
    modoDePreparo: Raw,
    custoDeProducao: Raw,
    ingredientes: ArrayField<I>,
    pedidoReceitas: ArrayField<P>
  )

  /** The string "0", the default yield (the yield is a string in the schema). */
  const ZeroText: Raw := Str(Text("0", Finite(0.0), Finite(0.0)))

  /** `Array.isArray(x) ? x : []` */
  function ArrayOrEmpty<T>(f: ArrayField<T>): (r: ArrayField<T>)
    ensures r.Array?
    ensures f.Array? ==> r == f
    ensures f.NotArray? ==> r.items == []
  {
    if f.Array? then f else Array([])
  }

  /** normalizarReceita(apiReceita), with `freshId` standing for the value of
      `crypto.randomUUID()`. */
  function NormalizeRecipe<I, P>(api: Recipe<I, P>, freshId: string): (r: Recipe<I, P>)
    ensures api.id != "" ==> r.id == api.id
    ensures api.id == "" ==> r.id == freshId
    ensures Truthy(api.nome) ==> r.nome == api.nome
    ensures !Truthy(api.nome) ==> r.nome == Str(EmptyText)
    ensures Truthy(api.rendimento) ==> r.rendimento == api.rendimento
    ensures !Truthy(api.rendimento) ==> r.rendimento == ZeroText
    ensures Truthy(api.modoDePreparo) ==> r.modoDePreparo == api.modoDePreparo
    ensures !Truthy(api.modoDePreparo) ==> r.modoDePreparo == Str(EmptyText)
    ensures r.custoDeProducao.Number?
    ensures api.custoDeProducao.Number? <==> r.custoDeProducao == api.custoDeProducao
    ensures !api.custoDeProducao.Number? ==> r.custoDeProducao == Number(Finite(0.0))
    ensures r.ingredientes.Array? && r.pedidoReceitas.Array?
    ensures api.ingredientes.Array? <==> r.ingredientes == api.ingredientes
    ensures api.pedidoReceitas.Array? <==> r.pedidoReceitas == api.pedidoReceitas
    ensures !api.ingredientes.Array? ==> r.ingredientes.items == []
    ensures !api.pedidoReceitas.Array? ==> r.pedidoReceitas.items == []
  {
    Recipe(
      id := if api.id != "" then api.id else freshId,
      nome := Or(api.nome, Str(EmptyText)),
      rendimento := Or(api.rendimento, ZeroText),
      modoDePreparo := Or(api.modoDePreparo, Str(EmptyText)),
      custoDeProducao := if api.custoDeProducao.Number? then api.custoDeProducao else Number(Finite(0.0)),
      ingredientes := ArrayOrEmpty(api.ingredientes),
      pedidoReceitas := ArrayOrEmpty(api.pedidoReceitas)
    )
  }

  /** Normalising a normalised record changes nothing, whatever fresh id the
      second pass would draw, provided the first drew a non-empty one. */
  lemma NormalizeIdempotent<I, P>(api: Recipe<I, P>, freshId: string, otherFreshId: string)
    requires freshId != ""
    ensures var once := NormalizeRecipe(api, freshId);
            NormalizeRecipe(once, otherFreshId) == once
  {
  }

  /** A record that already has every field in normal form is returned as is. */
  lemma NormalizeFixesNormalForm<I, P>(api: Recipe<I, P>, freshId: string)
    requires api.id != "" && Truthy(api.nome) && Truthy(api.rendimento) && Truthy(api.modoDePreparo)
    requires api.custoDeProducao.Number? && api.ingredientes.Array? && api.pedidoReceitas.Array?
    ensures NormalizeRecipe(api, freshId) == api
  {
  }
}

=== FILE: preview.dfy ===
/** The per-row price preview the selector shows while a quantity is being
    entered. It is a separate derivation from the recipe total: it divides the
    pack price by the stock's unit count and the converted quantity by the
    weight per unit, each defaulting to 1.
 */
module Preview {
  import opened Js
  import opened Items
  import opened Convert
  import opened Selector

  /** The guard of the preview: a truthy row price and a stock item whose
      `unidades` compare greater than 0. Otherwise the row shows "R$ 0,00". */
  predicate ShowsPrice(rowPrice: Raw, stockItem: Option<Item>) {
    Truthy(rowPrice) && stockItem.Some? && GreaterThanZero(stockItem.value.unidades)
  }

  /** `parseFloat(quantidadesLocais[id] || 0)` */
  function UsedQuantity(localQty: Option<Num>): (q: real)
    ensures localQty.None? || !NumTruthy(localQty.value) ==> q == 0.0
    ensures localQty.Some? && localQty.value.Finite? ==> q == localQty.value.v
  {
    match localQty
    case Some(n) => NumOr(n, 0.0)
    case None => 0.0
  }

  /** The preview price of a row, before currency formatting. `localUnit` is
      the row's local unit (`""` when absent), `rowUnit` the row's own
      `unidade`, and `stockUnitFallback` what a missing stock unit becomes
      (`""` in the stock list, "un" in the staged list). `NaN` is what the
      screen shows when a divisor reads as 0 or a field as NaN. */
  function PreviewPrice(rowPrice: Raw, rowUnit: string, stockItem: Option<Item>,
                        localQty: Option<Num>, localUnit: string, stockUnitFallback: string): (r: Num)
    ensures !ShowsPrice(rowPrice, stockItem) ==> r == Finite(0.0)
    ensures ShowsPrice(rowPrice, stockItem) ==>
              (r.Finite? <==>
                 ToNumber(stockItem.value.precoCusto).Finite?
                 && NumTruthy(ParseFloat(Or(stockItem.value.unidades, Number(Finite(1.0)))))
                 && NumTruthy(ParseFloat(Or(stockItem.value.pesoPorUnidade, Number(Finite(1.0))))))
  {
    if !ShowsPrice(rowPrice, stockItem) then Finite(0.0)
    else
      var estoque := stockItem.value;
      var qtdUsada := UsedQuantity(localQty);
      var unidadeUsada := OrText(localUnit, rowUnit);
      var pesoPorUnidade := ParseFloat(Or(estoque.pesoPorUnidade, Number(Finite(1.0))));
      var unidadesEstoque := ParseFloat(Or(estoque.unidades, Number(Finite(1.0))));
      var unidadeEstoque := OrText(estoque.unidadeMedida, stockUnitFallback);
      var qtdConvertida := Div(Finite(ConvertToBase(qtdUsada, unidadeUsada, unidadeEstoque)), pesoPorUnidade);
      Mul(Div(ToNumber(estoque.precoCusto), unidadesEstoque), qtdConvertida)
  }

  /** The preview in the stock list (`ingrediente` is a stock item). */
  function StockRowPreview(s: State, estoqueMap: map<Id, Item>, ingrediente: Item): Num {
    PreviewPrice(ingrediente.precoCusto, ingrediente.unidade, StockOf(estoqueMap, ingrediente.id),
                 LocalQuantity(s, ingrediente.id), LocalUnit(s, ingrediente.id), "")
  }

  /** The preview in the staged list (`ingrediente` is a staged entry; a
      missing stock unit reads as "un"). */
  function StagedRowPreview(s: State, estoqueMap: map<Id, Item>, ingrediente: Item): Num {
    PreviewPrice(ingrediente.precoCusto, ingrediente.unidade, StockOf(estoqueMap, ingrediente.id),
                 LocalQuantity(s, ingrediente.id), LocalUnit(s, ingrediente.id), "un")
  }

  /** The stock list and the staged list always show the same preview for a
      row: their fallbacks for a missing stock unit differ ("" and "un"), but
      converting to either leaves every quantity as it is. */
  lemma RowPreviewsAgree(s: State, estoqueMap: map<Id, Item>, ingrediente: Item)
    ensures StockRowPreview(s, estoqueMap, ingrediente) == StagedRowPreview(s, estoqueMap, ingrediente)
  {
  }

  /** When the guard holds and every field reads as a usable number, the
      preview is (price / units) times the quantity converted to the stock
      unit, divided by the weight per unit (each of units and weight read
      through `|| 1`). */
  lemma PreviewFormula(rowPrice: Raw, rowUnit: string, estoque: Item,
                       localQty: Option<Num>, localUnit: string, stockUnitFallback: string)
    requires ShowsPrice(rowPrice, Some(estoque))
    requires ToNumber(estoque.precoCusto).Finite?
    requires NumTruthy(ParseFloat(Or(estoque.unidades, Number(Finite(1.0)))))
    requires NumTruthy(ParseFloat(Or(estoque.pesoPorUnidade, Number(Finite(1.0)))))
    ensures var price := ToNumber(estoque.precoCusto).v;
            var units := ParseFloat(Or(estoque.unidades, Number(Finite(1.0)))).v;
            var weight := ParseFloat(Or(estoque.pesoPorUnidade, Number(Finite(1.0)))).v;
            var converted := ConvertToBase(UsedQuantity(localQty), OrText(localUnit, rowUnit),
                                           OrText(estoque.unidadeMedida, stockUnitFallback));
            PreviewPrice(rowPrice, rowUnit, Some(estoque), localQty, localUnit, stockUnitFallback)
              == Finite((price / units) * (converted / weight))
  {
  }

  /** With no usable quantity typed yet, a row whose preview is a number shows 0. */
  lemma PreviewWithoutQuantityIsZero(rowPrice: Raw, rowUnit: string, stockItem: Option<Item>,
                                     localQty: Option<Num>, localUnit: string, stockUnitFallback: string)
    requires localQty.None? || !NumTruthy(localQty.value)
    requires PreviewPrice(rowPrice, rowUnit, stockItem, localQty, localUnit, stockUnitFallback).Finite?
    ensures PreviewPrice(rowPrice, rowUnit, stockItem, localQty, localUnit, stockUnitFallback) == Finite(0.0)
  {
  }
}

=== FILE: recipe_form.dfy ===
/** The recipe editor's form logic: the field validator, the request payload
    built on save, and the mapping of a fetched recipe's ingredients.
 */
module RecipeForm {
  import opened Js
  import opened Items

  // ----- validate -----

  /** The characters `String.prototype.trim` removes: white space and line
      terminators of ECMAScript. */
  predicate IsJsSpace(c: char) {
    c in {' ', '\t', '\n', '\r', '\U{B}', '\U{C}', '\U{A0}', '\U{1680}',
          '\U{2000}', '\U{2001}', '\U{2002}', '\U{2003}', '\U{2004}', '\U{2005}',
          '\U{2006}', '\U{2007}', '\U{2008}', '\U{2009}', '\U{200A}',
          '\U{2028}', '\U{2029}', '\U{202F}', '\U{205F}', '\U{3000}', '\U{FEFF}'}
  }

  /** `!s.trim()`: the string is empty once white space is trimmed. */
  predicate IsBlank(s: string) {
    forall i :: 0 <= i < |s| ==> IsJsSpace(s[i])
  }

  datatype YieldError = YieldRequired | YieldNotPositive

  /** The keys of `newErrors`: the name error, the yield error (two messages),
      the empty-list error and the indices of the per-ingredient errors. */
  datatype Errors = Errors(nome: bool, rendimento: Option<YieldError>, ingredientes: bool, quantidades: seq<nat>)

  /** `Object.keys(newErrors).length === 0` */
  predicate NoErrors(e: Errors) {
    !e.nome && e.rendimento.None? && !e.ingredientes && |e.quantidades| == 0
  }

  /** The per-ingredient test as written: `!q || parseFloat(q) <= 0`. A NaN
      parse compares false, so it is not an error. */
  predicate BadQuantity(q: Raw) {
    !Truthy(q) || (ParseFloat(q).Finite? && ParseFloat(q).v <= 0.0)
  }

  /** The indices, in increasing order, of the entries whose quantity `bad`
      rejects. */
  function QuantityErrors(xs: seq<Item>, bad: Raw -> bool): (r: seq<nat>)
    ensures forall k: nat :: k in r <==> k < |xs| && bad(xs[k].quantidadeUsada)
    ensures forall i, j :: 0 <= i < j < |r| ==> r[i] < r[j]
    ensures forall i :: 0 <= i < |r| ==> r[i] < |xs|
  {
    if |xs| == 0 then []
    else
      var init := xs[..|xs| - 1];
      var rest := QuantityErrors(init, bad);
      assert forall k :: 0 <= k < |init| ==> init[k] == xs[k];
      if bad(xs[|xs| - 1].quantidadeUsada) then rest + [|xs| - 1] else rest
  }

  /** The validator with a given per-ingredient test. */
  function ValidateWith(nome: string, rendimento: Text, ingredientes: seq<Item>, bad: Raw -> bool): (e: Errors)
    ensures e.nome <==> IsBlank(nome)
    ensures e.rendimento.None? <==>
              !IsBlank(rendimento.chars) && rendimento.float.Finite? && rendimento.float.v > 0.0
    ensures e.ingredientes <==> |ingredientes| == 0
    ensures forall k: nat :: k in e.quantidades <==> k < |ingredientes| && bad(ingredientes[k].quantidadeUsada)
    ensures !(e.ingredientes && |e.quantidades| > 0)
  {
    var rendimentoErro :=
      if IsBlank(rendimento.chars) then Some(YieldRequired)
      else if rendimento.float.NaN? || rendimento.float.v <= 0.0 then Some(YieldNotPositive)
      else None;
    var quantidades := if |ingredientes| == 0 then [] else QuantityErrors(ingredientes, bad);
    Errors(IsBlank(nome), rendimentoErro, |ingredientes| == 0, quantidades)
  }

  /** validate(): the errors it records, for the name, the yield (`rendimento`,
      with what `parseFloat` reads from it) and the list to be saved. */
  function Validate(nome: string, rendimento: Text, ingredientes: seq<Item>): Errors {
    ValidateWith(nome, rendimento, ingredientes, BadQuantity)
  }

  /** validate() returns true exactly when the name and the yield are not
      blank, the yield parses to a number above 0, the list is not empty and
      no quantity is missing, falsy or parses to a number at most 0. */
  lemma ValidateIff(nome: string, rendimento: Text, ingredientes: seq<Item>)
    ensures NoErrors(Validate(nome, rendimento, ingredientes)) <==>
              && !IsBlank(nome)
              && !IsBlank(rendimento.chars) && rendimento.float.Finite? && rendimento.float.v > 0.0
              && |ingredientes| > 0
              && forall i :: 0 <= i < |ingredientes| ==> !BadQuantity(ingredientes[i].quantidadeUsada)
  {
    var e := Validate(nome, rendimento, ingredientes);
    assert |e.quantidades| > 0 ==> e.quantidades[0] in e.quantidades;
    if !forall i :: 0 <= i < |ingredientes| ==> !BadQuantity(ingredientes[i].quantidadeUsada) {
      var i :| 0 <= i < |ingredientes| && BadQuantity(ingredientes[i].quantidadeUsada);
      assert i in e.quantidades;
    }
  }

  // ----- the intended per-ingredient test -----

  /** The per-ingredient test that also rejects a quantity that does not parse,
      as the yield test does with `isNaN`. */
  predicate RejectsQuantity(q: Raw) {
    !Truthy(q) || ParseFloat(q).NaN? || ParseFloat(q).v <= 0.0
  }

  function ValidateChecked(nome: string, rendimento: Text, ingredientes: seq<Item>): Errors {
    ValidateWith(nome, rendimento, ingredientes, RejectsQuantity)
  }

  /** With the corrected test, a form that passes has every quantity parsing to
      a number above 0; on forms whose quantities all parse, both tests agree. */
  lemma ValidateCheckedQuantitiesParse(nome: string, rendimento: Text, ingredientes: seq<Item>)
    ensures NoErrors(ValidateChecked(nome, rendimento, ingredientes)) ==>
              forall i :: 0 <= i < |ingredientes| ==>
                ParseFloat(ingredientes[i].quantidadeUsada).Finite? && ParseFloat(ingredientes[i].quantidadeUsada).v > 0.0
    ensures (forall i :: 0 <= i < |ingredientes| ==> ParseFloat(ingredientes[i].quantidadeUsada).Finite?) ==>
              (NoErrors(ValidateChecked(nome, rendimento, ingredientes)) <==> NoErrors(Validate(nome, rendimento, ingredientes)))
  {
    var c := ValidateChecked(nome, rendimento, ingredientes);
    var w := Validate(nome, rendimento, ingredientes);
    if NoErrors(c) {
      forall i | 0 <= i < |ingredientes|
        ensures ParseFloat(ingredientes[i].quantidadeUsada).Finite? && ParseFloat(ingredientes[i].quantidadeUsada).v > 0.0
      {
        assert i !in c.quantidades;
      }
    }
    if forall i :: 0 <= i < |ingredientes| ==> ParseFloat(ingredientes[i].quantidadeUsada).Finite? {
      assert forall k :: k in c.quantidades <==> k in w.quantidades;
      assert |c.quantidades| > 0 ==> c.quantidades[0] in w.quantidades;
      assert |w.quantidades| > 0 ==> w.quantidades[0] in c.quantidades;
    }
  }

  /** As written, validate accepts an ingredient whose quantity is the text
      "abc" (parseFloat gives NaN), and the payload then carries NaN. */
  lemma ValidateAcceptsUnparsableQuantity()
    ensures var abc := Item("i1", "sugar", Undefined, Undefined, "g", "", "", "",
                            Str(Text("abc", NaN, NaN)), Undefined, Undefined);
            var form := Form("", "cake", Text("4", Finite(4.0), Finite(4.0)), "", Undefined, [abc]);
            && NoErrors(Validate(form.nome, form.rendimento, form.ingredientes))
            && !NoErrors(ValidateChecked(form.nome, form.rendimento, form.ingredientes))
            && SavePayload(form).Some?
            && SavePayload(form).value.ingredientes == Some([PayloadIngredient("i1", NaN, "g")])
  {
    var abc := Item("i1", "sugar", Undefined, Undefined, "g", "", "", "",
                    Str(Text("abc", NaN, NaN)), Undefined, Undefined);
    var form := Form("", "cake", Text("4", Finite(4.0), Finite(4.0)), "", Undefined, [abc]);
    assert form.nome[0] == 'c' && !IsJsSpace('c');
    assert form.rendimento.chars[0] == '4' && !IsJsSpace('4');
    assert !BadQuantity(abc.quantidadeUsada);
    ValidateIff(form.nome, form.rendimento, form.ingredientes);
    assert 0 in ValidateChecked(form.nome, form.rendimento, form.ingredientes).quantidades;
    var p := SavePayload(form).value.ingredientes.value;
    assert |p| == 1 && p[0] == PayloadIngredient("i1", NaN, "g");
    assert p == [PayloadIngredient("i1", NaN, "g")];
  }

  // ----- handleSave -----

  /** The editor's state that handleSave reads. `idReceita` is `""` for a new
      recipe. */
  datatype Form = Form(idReceita: Id, nome: string, rendimento: Text, modoPreparo: string,
                       custoProducao: Raw, ingredientes: seq<Item>)

  datatype PayloadIngredient = PayloadIngredient(ingredienteId: Id, quantidadeUsada: Num, unidadeMedidaUsada: string)

  /** receitaDataToSave; `None` fields are left undefined. */
  datatype Payload = Payload(nome: string, rendimento: string, modoDePreparo: string,
                             ingredientes: Option<seq<PayloadIngredient>>, custoDeProducao: Option<real>)

  /** `{ingredienteId, quantidadeUsada: Number(q), unidadeMedidaUsada}` */
  function ToPayloadIngredient(ing: Item): PayloadIngredient {
    PayloadIngredient(ing.id, ToNumber(ing.quantidadeUsada), ing.unidade)
  }

  /** handleSave, up to the request: nothing when validation fails; for a new
      recipe the ingredient list and no cost; for an existing one the cost and
      no ingredient list. */
  function SavePayload(f: Form): (r: Option<Payload>)
    ensures r.Some? <==> NoErrors(Validate(f.nome, f.rendimento, f.ingredientes))
    ensures r.Some? ==> r.value.nome == f.nome && r.value.rendimento == f.rendimento.chars
                        && r.value.modoDePreparo == f.modoPreparo
    ensures r.Some? && f.idReceita == "" ==>
              && r.value.custoDeProducao.None?
              && r.value.ingredientes.Some?
              && |r.value.ingredientes.value| == |f.ingredientes|
              && forall i :: 0 <= i < |f.ingredientes| ==>
                   r.value.ingredientes.value[i].ingredienteId == f.ingredientes[i].id
                   && r.value.ingredientes.value[i].quantidadeUsada == ToNumber(f.ingredientes[i].quantidadeUsada)
                   && r.value.ingredientes.value[i].unidadeMedidaUsada == f.ingredientes[i].unidade
    ensures r.Some? && f.idReceita != "" ==>
              && r.value.ingredientes.None?
              && r.value.custoDeProducao.Some?
              && (!NumTruthy(ParseFloat(f.custoProducao)) ==> r.value.custoDeProducao.value == 0.0)
              && (NumTruthy(ParseFloat(f.custoProducao)) ==>
                    r.value.custoDeProducao.value == ParseFloat(f.custoProducao).v)
  {
    if !NoErrors(Validate(f.nome, f.rendimento, f.ingredientes)) then None
    else
      var isNewRecipe := f.idReceita == "";
      var ingredientesParaAPI :=
        if isNewRecipe then Some(seq(|f.ingredientes|, i requires 0 <= i < |f.ingredientes| =>
                                       ToPayloadIngredient(f.ingredientes[i])))
        else None;
      var custo := if isNewRecipe then None else Some(NumOr(ParseFloat(f.custoProducao), 0.0));
      Some(Payload(f.nome, f.rendimento.chars, f.modoPreparo, ingredientesParaAPI, custo))
  }

  // ----- fetchIngredients -----

  /** One ingredient row of a fetched recipe. `ingrediente` is the nested stock
      item, `None` when the row comes without one (undefined or null). */
  datatype FetchedRow = FetchedRow(idIngrediente: Id, ingrediente: Option<Item>, unidade: string,
                                   qtdGramasOuMl: Raw, qtdUnidade: Raw)

  /** The entry the mapping builds from a row; `None` when reading
      `ri.ingrediente.nome` throws because the nested item is missing. */
  function FetchedEntry(ri: FetchedRow): (r: Option<Item>)
    ensures r.None? <==> ri.ingrediente.None?
  {
    match ri.ingrediente
    case None => None
    case Some(ing) =>
      Some(Item(
        id := ri.idIngrediente,
        nome := ing.nome,
        preco := Undefined,
        precoCusto := ing.precoCusto,
        unidade := OrText(OrText(ing.unidadeMedida, ri.unidade), "unidade"),
        unidadeOriginal := "",
        unidadeMedida := "",
        unidadeDeMedida := "",
        quantidadeUsada := ToText(Or(Or(ri.qtdGramasOuMl, ri.qtdUnidade), Str(EmptyText))),
        unidades := ing.unidades,
        pesoPorUnidade := ing.pesoPorUnidade
      ))
  }

  /** Every row carries its nested stock item. */
  predicate AllNested(rows: seq<FetchedRow>) {
    forall i :: 0 <= i < |rows| ==> rows[i].ingrediente.Some?
  }

  /** `ingredientesRaw.map(...)`: one entry per row, in order, carrying the
      nested stock item's name, price, pack count and weight per unit. The unit
      is the stock unit, else the row's, else the literal "unidade"; the
      quantity is the text of the first truthy of the two quantity columns,
      else "". `None` when some row has no nested item, where the map throws. */
  function MapFetched(rows: seq<FetchedRow>): (r: Option<seq<Item>>)
    ensures r.Some? <==> AllNested(rows)
    ensures r.Some? ==> |r.value| == |rows|
    ensures r.Some? ==> forall i :: 0 <= i < |rows| ==>
              var ing := rows[i].ingrediente.value;
              var e := r.value[i];
              && e.id == rows[i].idIngrediente
              && e.nome == ing.nome
              && e.precoCusto == ing.precoCusto
              && e.unidades == ing.unidades
              && e.pesoPorUnidade == ing.pesoPorUnidade
              && e.unidade != ""
              && (ing.unidadeMedida != "" ==> e.unidade == ing.unidadeMedida)
              && (ing.unidadeMedida == "" && rows[i].unidade != "" ==> e.unidade == rows[i].unidade)
              && (ing.unidadeMedida == "" && rows[i].unidade == "" ==> e.unidade == "unidade")
              && (e.quantidadeUsada.Str? || e.quantidadeUsada.Rendered?)
              && (Truthy(rows[i].qtdGramasOuMl) ==> ParseFloat(e.quantidadeUsada) == ParseFloat(rows[i].qtdGramasOuMl))
              && (!Truthy(rows[i].qtdGramasOuMl) && Truthy(rows[i].qtdUnidade) ==>
                    ParseFloat(e.quantidadeUsada) == ParseFloat(rows[i].qtdUnidade))
              && (!Truthy(rows[i].qtdGramasOuMl) && !Truthy(rows[i].qtdUnidade) ==>
                    e.quantidadeUsada == Str(EmptyText))
  {
    if AllNested(rows) then
      Some(seq(|rows|, i requires 0 <= i < |rows| => FetchedEntry(rows[i]).value))
    else None
  }

  /** fetchIngredients from the fetched rows onwards: the mapped list, or `[]`
      when the mapping throws, since the catch falls through to `return []`.
      One row without its nested item thus empties the whole list. */
  function FetchIngredients(rows: seq<FetchedRow>): (r: seq<Item>)
    ensures AllNested(rows) ==> |r| == |rows| && forall i :: 0 <= i < |rows| ==> r[i].id == rows[i].idIngrediente
    ensures AllNested(rows) ==> Some(r) == MapFetched(rows)
    ensures !AllNested(rows) ==> r == []
  {
    match MapFetched(rows)
    case Some(entries) => entries
    case None => []
  }
}

=== FILE: selector.dfy ===
/** The staging logic of the ingredient selector: a list of ingredients added
    to the recipe, plus two maps keyed by ingredient id holding the quantity
    and the unit the user is entering for each ingredient "in preparation".
    Each handler is a pure transition on that state; only the local branches
    (no recipe id yet) are modelled.
 */
module Selector {
  import opened Js
  import opened Items

  /** ingredientesEmPreparacao, quantidadesLocais, unidadesLocais */
  datatype State = State(staged: seq<Item>, quantities: map<Id, Num>, units: map<Id, string>)

  /** The state every handler keeps: both maps have the same keys, every staged
      ingredient has an entry in them, and no ingredient is staged twice. */
  predicate Inv(s: State) {
    && s.quantities.Keys == s.units.Keys
    && IdSet(s.staged) <= s.quantities.Keys
    && UniqueIds(s.staged)
  }

  /** The two maps agree on every key other than `k`. */
  ghost predicate AgreeExcept<V>(a: map<Id, V>, b: map<Id, V>, k: Id) {
    forall x :: x != k ==> (x in a <==> x in b) && (x in a ==> a[x] == b[x])
  }

  /** `quantidadesLocais[id]`, `None` when the key is absent. */
  function LocalQuantity(s: State, id: Id): Option<Num> {
    if id in s.quantities then Some(s.quantities[id]) else None
  }

  /** `unidadesLocais[id]`, `""` when the key is absent. */
  function LocalUnit(s: State, id: Id): string {
    if id in s.units then s.units[id] else ""
  }

  /** The test `i => i.id !== id`. */
  function OtherId(id: Id): Item -> bool {
    (x: Item) => x.id != id
  }

  /** `xs.filter(i => i.id !== id)` */
  function RemoveId(xs: seq<Item>, id: Id): (r: seq<Item>)
    ensures forall x :: x in r <==> x in xs && x.id != id
    ensures IdSet(r) == IdSet(xs) - {id}
    ensures UniqueIds(xs) ==> UniqueIds(r)
    ensures id !in IdSet(xs) ==> r == xs
    ensures |r| <= |xs|
  {
    var r := Filter(xs, OtherId(id));
    assert IdSet(r) == IdSet(xs) - {id} by {
      forall y | y in IdSet(r) ensures y in IdSet(xs) - {id} {
        var i :| 0 <= i < |r| && r[i].id == y;
        assert r[i] in xs;
        var j :| 0 <= j < |xs| && xs[j] == r[i];
      }
      forall y | y in IdSet(xs) - {id} ensures y in IdSet(r) {
        var j :| 0 <= j < |xs| && xs[j].id == y;
        assert xs[j] in r;
        var i :| 0 <= i < |r| && r[i] == xs[j];
      }
    }
    FilterKeepsUniqueIds(xs, OtherId(id));
    assert id !in IdSet(xs) ==> r == xs by {
      if id !in IdSet(xs) {
        forall x | x in xs ensures OtherId(id)(x) {
          var j :| 0 <= j < |xs| && xs[j] == x;
        }
        FilterKeepsAll(xs, OtherId(id));
      }
    }
    r
  }

  /** Filtering a list with unique ids leaves its ids unique. */
  lemma {:induction false} FilterKeepsUniqueIds(xs: seq<Item>, keep: Item -> bool)
    ensures UniqueIds(xs) ==> UniqueIds(Filter(xs, keep))
  {
    if |xs| > 0 && UniqueIds(xs) {
      var x, tail := xs[0], xs[1..];
      assert xs == [x] + tail;
      UniqueIdsCons(x, tail);
      FilterKeepsUniqueIds(tail, keep);
      FilterCons(x, tail, keep);
      if keep(x) {
        var rest := Filter(tail, keep);
        IdSetMono(rest, tail);
        UniqueIdsCons(x, rest);
      }
    }
  }

  /** Removal keeps order: removing from a concatenation removes from each
      part, and a single entry is dropped exactly when it has the id, so the
      result is the entries of other ids in their original order. */
  lemma RemoveIdAppend(xs: seq<Item>, ys: seq<Item>, id: Id)
    ensures RemoveId(xs + ys, id) == RemoveId(xs, id) + RemoveId(ys, id)
    ensures forall x :: RemoveId([x], id) == if x.id == id then [] else [x]
  {
    FilterAppend(xs, ys, OtherId(id));
  }

  /** `xs.findIndex(i => i.id === id)`: the first position holding this id, or
      -1 when there is none. */
  function FindIndex(xs: seq<Item>, id: Id): (r: int)
    ensures -1 <= r < |xs|
    ensures r == -1 <==> id !in IdSet(xs)
    ensures r >= 0 ==> xs[r].id == id && forall j :: 0 <= j < r ==> xs[j].id != id
  {
    if |xs| == 0 then -1
    else if xs[0].id == id then 0
    else
      var k := FindIndex(xs[1..], id);
      assert xs == [xs[0]] + xs[1..];
      IdSetCons(xs[0], xs[1..]);
      if k == -1 then -1 else k + 1
  }

  /** The upsert of the add handler: the entry replaces the first one with its
      id, in place, or is appended. The other entries keep their positions. */
  function Upsert(xs: seq<Item>, e: Item): (r: seq<Item>)
    ensures e.id in IdSet(xs) ==> |r| == |xs|
    ensures e.id !in IdSet(xs) ==> |r| == |xs| + 1 && r[|xs|] == e
    ensures forall i :: 0 <= i < |xs| && xs[i].id != e.id ==> r[i] == xs[i]
    ensures IdSet(r) == IdSet(xs) + {e.id}
    ensures e in r
    ensures UniqueIds(xs) ==> UniqueIds(r) && forall i :: 0 <= i < |r| && r[i].id == e.id ==> r[i] == e
  {
    var index := FindIndex(xs, e.id);
    if index > -1 then
      var r := xs[index := e];
      assert r[index] == e;
      IdSetReplace(xs, index, e);
      r
    else
      var r := xs + [e];
      assert r[|xs|] == e;
      IdSetSnoc(xs, e);
      assert forall i :: 0 <= i < |xs| ==> xs[i].id in IdSet(xs);
      r
  }

  /** Replacing an entry by one with the same id keeps the id set. */
  lemma IdSetReplace(xs: seq<Item>, index: int, e: Item)
    requires 0 <= index < |xs| && xs[index].id == e.id
    ensures IdSet(xs[index := e]) == IdSet(xs)
  {
    var r := xs[index := e];
    forall x | x in IdSet(xs) ensures x in IdSet(r) {
      var i :| 0 <= i < |xs| && xs[i].id == x;
      if i == index { assert r[index].id == x; } else { assert r[i].id == x; }
    }
    forall x | x in IdSet(r) ensures x in IdSet(xs) {
      var i :| 0 <= i < |r| && r[i].id == x;
      if i == index { assert xs[index].id == x; } else { assert xs[i].id == x; }
    }
  }

  /** toggleIngredienteParaPreparacao: an ingredient with a local quantity is
      taken out of both maps and of the staged list; any other is put in both
      maps with quantity 0 and its stock unit, without being staged. */
  function Toggle(s: State, item: Item): (r: State)
    ensures (item.id in r.quantities) <==> (item.id !in s.quantities)
    ensures (item.id in r.units) <==> (item.id !in s.quantities)
    ensures AgreeExcept(r.quantities, s.quantities, item.id)
    ensures AgreeExcept(r.units, s.units, item.id)
    ensures item.id in s.quantities ==>
              r.staged == RemoveId(s.staged, item.id)
              && item.id !in IdSet(r.staged) && IdSet(r.staged) == IdSet(s.staged) - {item.id}
              && (forall x :: x in r.staged <==> x in s.staged && x.id != item.id)
    ensures item.id !in s.quantities ==>
              r.staged == s.staged && r.quantities[item.id] == Finite(0.0)
              && r.units[item.id] == item.unidadeMedida
  {
    if item.id in s.quantities then
      State(RemoveId(s.staged, item.id), s.quantities - {item.id}, s.units - {item.id})
    else
      State(s.staged, s.quantities[item.id := Finite(0.0)], s.units[item.id := item.unidadeMedida])
  }

  /** ajustarQuantidade(id, novaQtd): stores `Math.max(Number(novaQtd), 0)`. */
  function AdjustQuantity(s: State, id: Id, novaQtd: Raw): (r: State)
    ensures id in r.quantities
    ensures r.quantities[id].Finite? <==> ToNumber(novaQtd).Finite?
    ensures r.quantities[id].Finite? ==>
              r.quantities[id].v >= 0.0 && r.quantities[id].v >= ToNumber(novaQtd).v
              && (r.quantities[id].v == ToNumber(novaQtd).v || r.quantities[id].v == 0.0)
    ensures AgreeExcept(r.quantities, s.quantities, id)
    ensures r.units == s.units && r.staged == s.staged
  {
    s.(quantities := s.quantities[id := ClampAtZero(ToNumber(novaQtd))])
  }

  /** ajustarUnidade(id, unidade): overwrites that id's unit and nothing else. */
  function AdjustUnit(s: State, id: Id, unidade: string): (r: State)
    ensures LocalUnit(r, id) == unidade && id in r.units
    ensures AgreeExcept(r.units, s.units, id)
    ensures r.quantities == s.quantities && r.staged == s.staged
  {
    s.(units := s.units[id := unidade])
  }

  /** The guard of the add handler: a quantity is present, truthy and positive. */
  predicate CanAdd(s: State, id: Id) {
    id in s.quantities && NumTruthy(s.quantities[id]) && s.quantities[id].v > 0.0
  }

  /** The entry the local add handler builds for `item`, with the stock item
      looked up in `estoqueMap`. */
  function AddedEntry(s: State, item: Item, estoqueMap: map<Id, Item>): (e: Item)
    requires CanAdd(s, item.id)
    ensures e.id == item.id
    ensures ToNumber(e.quantidadeUsada) == s.quantities[item.id]
    ensures e.unidade == OrText(LocalUnit(s, item.id), item.unidadeMedida)
    ensures Truthy(e.unidades) && Truthy(e.pesoPorUnidade)
    ensures item.id !in estoqueMap ==>
              e.unidades == Number(Finite(1.0)) && e.pesoPorUnidade == Number(Finite(1.0))
    ensures item.id in estoqueMap && Truthy(estoqueMap[item.id].unidades) ==>
              e.unidades == estoqueMap[item.id].unidades
    ensures item.id in estoqueMap && !Truthy(estoqueMap[item.id].unidades) ==>
              e.unidades == Number(Finite(1.0))
    ensures item.id in estoqueMap && Truthy(estoqueMap[item.id].pesoPorUnidade) ==>
              e.pesoPorUnidade == estoqueMap[item.id].pesoPorUnidade
    ensures item.id in estoqueMap && !Truthy(estoqueMap[item.id].pesoPorUnidade) ==>
              e.pesoPorUnidade == Number(Finite(1.0))
    ensures e.nome == item.nome && e.precoCusto == item.precoCusto
    ensures e.unidadeDeMedida != ""
    ensures item.unidadeDeMedida != "" ==> e.unidadeDeMedida == item.unidadeDeMedida
    ensures item.unidadeDeMedida == "" && item.unidade != "" ==> e.unidadeDeMedida == item.unidade
    ensures item.unidadeDeMedida == "" && item.unidade == "" ==> e.unidadeDeMedida == "un"
  {
    var found := StockOf(estoqueMap, item.id);
    Item(
      id := item.id,
      nome := item.nome,
      preco := Undefined,
      precoCusto := item.precoCusto,
      unidade := OrText(LocalUnit(s, item.id), item.unidadeMedida),
      unidadeOriginal := "",
      unidadeMedida := "",
      unidadeDeMedida := OrText(OrText(item.unidadeDeMedida, item.unidade), "un"),
      quantidadeUsada := Number(s.quantities[item.id]),
      unidades := Or(if found.Some? then found.value.unidades else Undefined, Number(Finite(1.0))),
      pesoPorUnidade := Or(if found.Some? then found.value.pesoPorUnidade else Undefined, Number(Finite(1.0)))
    )
  }

  /** adicionarIngredienteAoEmPreparacao, local branch: without a truthy
      positive local quantity nothing changes; otherwise the built entry is
      upserted into the staged list and the maps are left as they are. */
  function AddLocal(s: State, item: Item, estoqueMap: map<Id, Item>): (r: State)
    ensures !CanAdd(s, item.id) ==> r == s
    ensures r.quantities == s.quantities && r.units == s.units
    ensures CanAdd(s, item.id) ==>
              IdSet(r.staged) == IdSet(s.staged) + {item.id}
              && |s.staged| <= |r.staged|
              && AddedEntry(s, item, estoqueMap) in r.staged
              && (forall i :: 0 <= i < |s.staged| && s.staged[i].id != item.id ==> r.staged[i] == s.staged[i])
    ensures UniqueIds(s.staged) ==> UniqueIds(r.staged)
  {
    if !CanAdd(s, item.id) then s
    else s.(staged := Upsert(s.staged, AddedEntry(s, item, estoqueMap)))
  }

  /** excluirIngredienteDaLista, local branch: the id leaves the staged list and
      both maps; nothing else changes. */
  function RemoveLocal(s: State, id: Id): (r: State)
    ensures r.staged == RemoveId(s.staged, id)
    ensures id !in IdSet(r.staged) && id !in r.quantities && id !in r.units
    ensures IdSet(r.staged) == IdSet(s.staged) - {id}
    ensures forall x :: x in r.staged <==> x in s.staged && x.id != id
    ensures AgreeExcept(r.quantities, s.quantities, id)
    ensures AgreeExcept(r.units, s.units, id)
  {
    State(RemoveId(s.staged, id), s.quantities - {id}, s.units - {id})
  }

  /** The row of the final list built for a staged ingredient. `keepUnidades`
      distinguishes handleConfirmar (which copies `unidades`) from
      handleCloseAndSave (which does not). */
  function FinalEntry(s: State, ing: Item, keepUnidades: bool): Item {
    var unidadeFinal := OrText(OrText(LocalUnit(s, ing.id), ing.unidadeMedida), "un");
    var quantidadeFinal :=
      Rendered(match LocalQuantity(s, ing.id) case Some(q) => NumOr(q, 0.0) case None => 0.0);
    Item(
      id := ing.id,
      nome := ing.nome,
      preco := Undefined,
      precoCusto := ing.precoCusto,
      unidade := unidadeFinal,
      unidadeOriginal := "",
      unidadeMedida := "",
      unidadeDeMedida := ing.unidadeMedida,
      quantidadeUsada := quantidadeFinal,
      unidades := if keepUnidades then ing.unidades else Undefined,
      pesoPorUnidade := Undefined
    )
  }

  /** `ingredientesEmPreparacao.map(...)` of the two closing handlers: one row
      per staged ingredient, in order. The unit falls back from the local unit
      to the stock unit to "un"; the quantity is `String(local || 0)`. No row
      carries `pesoPorUnidade`. */
  function FinalList(s: State, keepUnidades: bool): (r: seq<Item>)
    ensures |r| == |s.staged|
    ensures forall i :: 0 <= i < |r| ==> r[i].id == s.staged[i].id && r[i].precoCusto == s.staged[i].precoCusto
    ensures forall i :: 0 <= i < |r| ==>
              r[i].unidade != ""
              && (LocalUnit(s, r[i].id) != "" ==> r[i].unidade == LocalUnit(s, r[i].id))
              && (LocalUnit(s, r[i].id) == "" && s.staged[i].unidadeMedida != "" ==>
                    r[i].unidade == s.staged[i].unidadeMedida)
              && (LocalUnit(s, r[i].id) == "" && s.staged[i].unidadeMedida == "" ==> r[i].unidade == "un")
    ensures forall i :: 0 <= i < |r| ==>
              Truthy(r[i].quantidadeUsada)
              && (CanAdd(s, r[i].id) ==> ParseFloat(r[i].quantidadeUsada) == s.quantities[r[i].id])
              && (NumTruthy(LocalQuantity(s, r[i].id).GetOr(NaN)) ==>
                    ParseFloat(r[i].quantidadeUsada) == LocalQuantity(s, r[i].id).GetOr(NaN))
              && (!NumTruthy(LocalQuantity(s, r[i].id).GetOr(NaN)) ==>
                    ParseFloat(r[i].quantidadeUsada) == Finite(0.0))
    ensures forall i :: 0 <= i < |r| ==> r[i].pesoPorUnidade == Undefined
    ensures forall i :: 0 <= i < |r| ==> r[i].unidades == (if keepUnidades then s.staged[i].unidades else Undefined)
  {
    seq(|s.staged|, i requires 0 <= i < |s.staged| => FinalEntry(s, s.staged[i], keepUnidades))
  }

  /** handleConfirmar */
  function Confirm(s: State): (r: seq<Item>)
    ensures |r| == |s.staged|
    ensures forall i :: 0 <= i < |r| ==> r[i].id == s.staged[i].id && r[i].unidades == s.staged[i].unidades
  {
    FinalList(s, true)
  }

  /** handleCloseAndSave */
  function CloseAndSave(s: State): (r: seq<Item>)
    ensures |r| == |s.staged|
    ensures forall i :: 0 <= i < |r| ==> r[i].id == s.staged[i].id && r[i].unidades == Undefined
  {
    FinalList(s, false)
  }

  /** The row filter of the stock list: the name matches the search (an
      abstract predicate standing for the case-insensitive substring test) and
      the ingredient is either not staged or still in preparation. */
  predicate ShowsInStockList(s: State, matches: string -> bool, x: Item) {
    matches(x.nome) && (x.id !in IdSet(s.staged) || x.id in s.quantities)
  }

  /** filteredIngredientesEmEstoque */
  function SearchFilter(stock: seq<Item>, s: State, matches: string -> bool): (r: seq<Item>)
    ensures forall x :: x in r <==> x in stock && ShowsInStockList(s, matches, x)
  {
    Filter(stock, x => ShowsInStockList(s, matches, x))
  }

  /** Under the invariant every staged ingredient is in preparation, so the
      stock list shows exactly the ingredients whose name matches the search,
      in stock order. */
  lemma SearchFilterIsNameMatch(stock: seq<Item>, s: State, matches: string -> bool)
    requires Inv(s)
    ensures SearchFilter(stock, s, matches) == Filter(stock, (x: Item) => matches(x.nome))
  {
    FilterAgree(stock, x => ShowsInStockList(s, matches, x), (x: Item) => matches(x.nome));
  }

  // ----- seeding from an earlier selection -----

  /** A row of the earlier selection merged with its stock item (`{...ing, ...}`):
      the unit falls back to the stock unit and then "un", the price to the stock
      price and then 0, the pack count to the stock's. */
  function Seeded(ing: Item, found: Option<Item>): (r: Item)
    ensures r.(unidade := ing.unidade, precoCusto := ing.precoCusto, unidades := ing.unidades) == ing
    ensures r.unidade != ""
    ensures ing.unidade != "" ==> r.unidade == ing.unidade
    ensures ing.unidade == "" && found.Some? && found.value.unidadeMedida != "" ==>
              r.unidade == found.value.unidadeMedida
    ensures ing.unidade == "" && (found.None? || found.value.unidadeMedida == "") ==> r.unidade == "un"
    ensures Truthy(ing.preco) ==> r.precoCusto == ing.preco
    ensures !Truthy(ing.preco) && found.Some? && Truthy(found.value.precoCusto) ==>
              r.precoCusto == found.value.precoCusto
    ensures !Truthy(ing.preco) && (found.None? || !Truthy(found.value.precoCusto)) ==>
              r.precoCusto == Number(Finite(0.0))
    ensures Truthy(ing.unidades) ==> r.unidades == ing.unidades
    ensures !Truthy(ing.unidades) && found.Some? ==> r.unidades == found.value.unidades
    ensures !Truthy(ing.unidades) && found.None? ==> r.unidades == Undefined
  {
    ing.(
      unidade := OrText(OrText(ing.unidade, if found.Some? then found.value.unidadeMedida else ""), "un"),
      precoCusto := Or(Or(ing.preco, if found.Some? then found.value.precoCusto else Undefined), Number(Finite(0.0))),
      unidades := Or(ing.unidades, if found.Some? then found.value.unidades else Undefined)
    )
  }

  /** `Number(i.quantidadeUsada) || 0`: the quantity read as a number, 0 when
      that is NaN or 0. */
  function SeedQuantity(x: Item): (q: Num)
    ensures q.Finite?
    ensures NumTruthy(ToNumber(x.quantidadeUsada)) ==> q == ToNumber(x.quantidadeUsada)
    ensures !NumTruthy(ToNumber(x.quantidadeUsada)) ==> q == Finite(0.0)
  {
    Finite(NumOr(ToNumber(x.quantidadeUsada), 0.0))
  }

  /** `i.unidade || i.unidadeOriginal || i.unidadeMedida || "un"`: the first
      unit field that is set. */
  function SeedUnit(x: Item): (u: string)
    ensures u != ""
    ensures x.unidade != "" ==> u == x.unidade
    ensures x.unidade == "" && x.unidadeOriginal != "" ==> u == x.unidadeOriginal
    ensures x.unidade == "" && x.unidadeOriginal == "" && x.unidadeMedida != "" ==> u == x.unidadeMedida
    ensures x.unidade == "" && x.unidadeOriginal == "" && x.unidadeMedida == "" ==> u == "un"
  {
    OrText(OrText(OrText(x.unidade, x.unidadeOriginal), x.unidadeMedida), "un")
  }

  /** initialQuantities: one quantity per id, the last row with that id
      winning, since later writes overwrite earlier ones. */
  function SeedQuantities(xs: seq<Item>): (m: map<Id, Num>)
    ensures m.Keys == IdSet(xs)
    ensures forall i :: IsLastWithId(xs, i) ==> m[xs[i].id] == SeedQuantity(xs[i])
  {
    if |xs| == 0 then map[]
    else
      var init, last := xs[..|xs| - 1], xs[|xs| - 1];
      assert xs == init + [last];
      IdSetSnoc(init, last);
      forall i | IsLastWithId(xs, i) && i < |xs| - 1
        ensures IsLastWithId(init, i)
      {
      }
      SeedQuantities(init)[last.id := SeedQuantity(last)]
  }

  /** initialUnits: one unit per id, the last row with that id winning. */
  function SeedUnits(xs: seq<Item>): (m: map<Id, string>)
    ensures m.Keys == IdSet(xs)
    ensures forall i :: IsLastWithId(xs, i) ==> m[xs[i].id] == SeedUnit(xs[i])
  {
    if |xs| == 0 then map[]
    else
      var init, last := xs[..|xs| - 1], xs[|xs| - 1];
      assert xs == init + [last];
      IdSetSnoc(init, last);
      forall i | IsLastWithId(xs, i) && i < |xs| - 1
        ensures IsLastWithId(init, i)
      {
      }
      SeedUnits(init)[last.id := SeedUnit(last)]
  }

  /** The body of the seeding effect: the earlier selection, each row merged
      with the first stock item of its id, becomes the staged list, and every
      row gets a local quantity and a local unit. SeedOnLoad states when the
      body runs. */
  function InitialState(selecionados: seq<Item>, stock: seq<Item>): (s: State)
    ensures |s.staged| == |selecionados|
    ensures forall i :: 0 <= i < |s.staged| ==>
              s.staged[i] == Seeded(selecionados[i], FindFirst(stock, selecionados[i].id))
    ensures forall i :: 0 <= i < |s.staged| ==> s.staged[i].id == selecionados[i].id && s.staged[i].unidade != ""
    ensures IdSet(s.staged) == IdSet(selecionados)
    ensures s.quantities.Keys == s.units.Keys == IdSet(selecionados)
    ensures forall i :: IsLastWithId(s.staged, i) ==>
              s.quantities[s.staged[i].id] == SeedQuantity(s.staged[i])
              && s.units[s.staged[i].id] == s.staged[i].unidade
  {
    var staged := seq(|selecionados|, i requires 0 <= i < |selecionados| =>
                        Seeded(selecionados[i], FindFirst(stock, selecionados[i].id)));
    assert IdSet(staged) == IdSet(selecionados) by {
      forall x | x in IdSet(selecionados) ensures x in IdSet(staged) {
        var i :| 0 <= i < |selecionados| && selecionados[i].id == x;
        assert staged[i].id == x;
      }
    }
    State(staged, SeedQuantities(staged), SeedUnits(staged))
  }

  /** The seeding effect with its guard: the body runs only while the modal is
      open, the stock is no longer loading and the stock list is not empty;
      otherwise the previous staging state is kept as it was. */
  function SeedOnLoad(prev: State, isOpen: bool, loadingIngredients: bool,
                      selecionados: seq<Item>, stock: seq<Item>): (s: State)
    ensures !isOpen || loadingIngredients || |stock| == 0 ==> s == prev
    ensures isOpen && !loadingIngredients && |stock| > 0 ==>
              |s.staged| == |selecionados| && s.quantities.Keys == IdSet(selecionados)
    ensures isOpen && !loadingIngredients && |stock| > 0 ==> s == InitialState(selecionados, stock)
  {
    if isOpen && !loadingIngredients && |stock| > 0 then InitialState(selecionados, stock)
    else prev
  }

  /** With no stock loaded yet (an empty stock list) the selection is
      not seeded: whatever was staged before stays staged, so the selector can
      hand back a list that ignores the recipe's current ingredients. */
  lemma EmptyStockSkipsSeeding(prev: State, selecionados: seq<Item>)
    ensures SeedOnLoad(prev, true, false, selecionados, []) == prev
    ensures |selecionados| > 0 && prev.staged == [] ==>
              SeedOnLoad(prev, true, false, selecionados, []).staged != InitialState(selecionados, []).staged
  {
  }

  /** Seeding from a selection without repeated ids establishes the invariant. */
  lemma InitialStateInv(selecionados: seq<Item>, stock: seq<Item>)
    requires UniqueIds(selecionados)
    ensures Inv(InitialState(selecionados, stock))
    ensures var s := InitialState(selecionados, stock);
            forall i :: 0 <= i < |selecionados| ==>
              s.quantities[selecionados[i].id] == SeedQuantity(s.staged[i])
              && s.units[selecionados[i].id] == s.staged[i].unidade
  {
    var s := InitialState(selecionados, stock);
    assert UniqueIds(s.staged) by {
      forall i, j | 0 <= i < j < |s.staged| ensures s.staged[i].id != s.staged[j].id {
        assert selecionados[i].id != selecionados[j].id;
      }
    }
    forall i | 0 <= i < |selecionados|
      ensures s.quantities[selecionados[i].id] == SeedQuantity(s.staged[i])
      ensures s.units[selecionados[i].id] == s.staged[i].unidade
    {
      assert IsLastWithId(s.staged, i);
    }
  }

  // ----- the invariant across the handlers -----

  lemma ToggleKeepsInv(s: State, item: Item)
    requires Inv(s)
    ensures Inv(Toggle(s, item))
  {
  }

  /** The quantity input is rendered only for an ingredient in preparation. */
  lemma AdjustQuantityKeepsInv(s: State, id: Id, novaQtd: Raw)
    requires Inv(s) && id in s.quantities
    ensures Inv(AdjustQuantity(s, id, novaQtd))
  {
  }

  /** The unit select is rendered only for an ingredient in preparation. */
  lemma AdjustUnitKeepsInv(s: State, id: Id, unidade: string)
    requires Inv(s) && id in s.units
    ensures Inv(AdjustUnit(s, id, unidade))
  {
  }

  lemma AddLocalKeepsInv(s: State, item: Item, estoqueMap: map<Id, Item>)
    requires Inv(s)
    ensures Inv(AddLocal(s, item, estoqueMap))
  {
  }

  lemma RemoveLocalKeepsInv(s: State, id: Id)
    requires Inv(s)
    ensures Inv(RemoveLocal(s, id))
  {
  }

  /** Toggling an ingredient that is not in preparation and then toggling it
      again restores the state exactly. */
  lemma ToggleTwiceRestores(s: State, item: Item)
    requires Inv(s) && item.id !in s.quantities
    ensures Toggle(Toggle(s, item), item) == s
  {
    var t := Toggle(s, item);
    assert t.quantities - {item.id} == s.quantities;
    assert t.units - {item.id} == s.units;
  }
}
